=== FILE: README.md ===
# dpui backend core in Dafny

dpui is a desktop tool for arranging monitors on macOS. Its Rust backend
drives the `displayplacer` command-line tool and keeps a small store of saved
layouts ("presets"). Users reach both through the main window and a tray
menu. This project models the pure core of that backend and proves
properties of it. There are three parts.

- **Reading displayplacer's output** (`displayplacer.dfy`, module
  `Displayplacer`). `displayplacer list` prints a human-readable report and
  then a line containing `Execute the command below`. Under that line comes
  one `displayplacer "id:… res:… origin:(x,y) degree:…" …` command that
  reproduces the current layout.
  - `ParseDisplayplacerOutput` walks the lines with a one-flag loop, just as
    the Rust function does.
  - `ParseDisplayString` reads one quoted chunk token by token.
  - `ParseCoordinates` reads `(x,y)`.
  - `ToggleArgument` builds the argument that switches one display on or off.

  The Rust standard-library pieces these rely on are modelled exactly in
  `text.dfy` (module `Text`) and `integers.dfy` (module `Integers`): `lines`,
  `split`, `trim`, `trim_matches`, `split_whitespace`, `contains`,
  `starts_with`, `i32` parsing and `i32` printing. In particular:
  - `lines` drops a trailing empty line and strips a `\r` before each `\n`;
  - whitespace is Unicode `White_Space`;
  - `i32` parsing takes an optional `+` or `-`, ASCII digits only, and checks
    the range.
- **The preset store** (`presets.dfy`, module `Presets`). Each preset
  command loads the store, applies one transformation and saves the store.
  The transformations are modelled as pure functions:
  - `DefaultStore`;
  - `AddPreset`, which appends;
  - `DeletePreset`, which keeps every preset with another id;
  - `UpdatePreset`, which patches the first preset with the id or fails with
    `Preset not found`.
- **The tray menu** (`system_tray.dfy`, module `SystemTray`).
  - `RouteMenuItem` maps a clicked item's id to an `Action`.
  - `HandleTrayMenuEvent` performs the action on an abstract application
    state: the main window (if any), the events sent to the frontend, and the
    exit status.

`results.dfy` (module `Results`) holds `Option` and `Result`.

The parser's behaviour follows the code, which in a few places is not what a
quick reading suggests:

- **The last `id:` token decides.** A chunk whose last `id:` token is bare
  (`id:` with nothing after it) yields no display, even when an earlier `id:`
  token had text.
- **Bad origins and bad angles are handled differently.** An `origin:` whose
  coordinates do not parse keeps the origin read earlier. A `degree:` that
  does not parse resets the rotation to 0.
- **Resolution and rotation are not checked.** The comments on the
  `Display` struct (`src-tauri/src/displayplacer.rs`, lines 29 and 33) call
  the resolution `WIDTHxHEIGHT` and the rotation one of 0, 90, 180 or 270.
  The parser keeps the resolution as raw text and the rotation as any `i32`,
  and the model follows the parser.
- **`enabled` depends on the whole chunk.** It is false exactly when the
  chunk contains `disabled` anywhere, inside another token included.
- **The parser does not read the toggle's own state word.**
  `toggle_display_enabled` (`src-tauri/src/displayplacer.rs`, lines 151-152)
  writes `enabled:false` to switch a display off. The parser (line 248) only
  looks for `disabled`, so it reads the same display from the enabling and
  the disabling argument (`ToggleStateIgnored`). For a one-word id
  (non-empty, no whitespace) without an `i`, it reads the disabling
  argument as an enabled display
  (`ToggleOffReadsEnabled`). The model keeps both halves as written.

## Model

| member | source | states |
|---|---|---|
| Displayplacer.ParseCoordinatesRoundTrip | src-tauri/src/displayplacer.rs:302-313 | every pair of `i32`s, negatives included, printed as `(x,y)` parses back to exactly that pair (this covers the documented examples `(0,0)`, `(2560,0)` and `(-1920,0)`) |
| Displayplacer.ParseCoordinatesExactly | src-tauri/src/displayplacer.rs:303-312 | once the parentheses at both ends are trimmed, text `a,b` with no further comma parses exactly when both `a` and `b` parse as `i32`, and then to their values |
| Displayplacer.ParseCoordinatesOneComma | src-tauri/src/displayplacer.rs:303-306 | coordinates never parse unless exactly one comma remains after the parentheses are trimmed |
| Integers.ParseFormatI32 | src-tauri/src/displayplacer.rs:307-308 | `i32` parsing reads back the decimal text of every `i32`, negative values included |
| Integers.ParseI32Accepts | src-tauri/src/displayplacer.rs:307-308 | text that parses as an `i32` is an optional sign followed by ASCII digits only, and a leading `-` gives a value that is not positive |
| Displayplacer.ReadTokenStep | src-tauri/src/displayplacer.rs:251-268 | a token changes only the setting its prefix names; an `origin:` changes the origin only when its coordinates parse; a `degree:` sets the rotation to its value, or 0 when the value does not parse |
| Displayplacer.ReadTokensLast | src-tauri/src/displayplacer.rs:251-268 | each setting ends up with the value given by the last token that sets it, whatever came before |
| Displayplacer.ReadTokensNever | src-tauri/src/displayplacer.rs:244-268 | a setting that no token sets keeps its initial value: empty id and resolution, origin (0,0), rotation 0 |
| Displayplacer.ParseDisplayString | src-tauri/src/displayplacer.rs:271-281 | a parsed display never has an empty id |
| Displayplacer.ParseDisplayStringId | src-tauri/src/displayplacer.rs:251-281 | a chunk yields no display exactly when it has no `id:` token or its last `id:` token is bare; otherwise the id is that last token's text after `id:` |
| Displayplacer.LaterBareIdDiscards | src-tauri/src/displayplacer.rs:252-253 | for every `<id>`, a chunk `id:<id> id:` yields no display: the bare second `id:` empties the id read from the first |
| Displayplacer.ParseDisplayStringFields | src-tauri/src/displayplacer.rs:244-268 | in a parsed display, `enabled` is false exactly when the chunk contains `disabled`. The resolution, origin and rotation come from the last token that sets each, or take their defaults when no token does |
| Displayplacer.ParseDescribedDisplay | src-tauri/src/displayplacer.rs:243-282 | describing a display in displayplacer's `id: res: origin: degree:` format and parsing the description gives back the display's id, resolution, origin and rotation, for every non-empty id without whitespace and every resolution that is empty or has no whitespace. `enabled` is not carried over: the description has no `enabled` word, so it comes back true unless the text contains `disabled` |
| Displayplacer.ParseDisplayStringExample | src-tauri/src/displayplacer.rs:327-336 | the chunk of the unit test parses to display "1", resolution 2560x1440, origin (0,0), rotation 0, enabled |
| Displayplacer.ScanLinesDescribed | src-tauri/src/displayplacer.rs:189-217 | the one-flag pass over the lines collects exactly the displays of the command lines that come strictly after the first marker line and do not repeat the marker, in order |
| Displayplacer.ParseDisplayplacerOutput | src-tauri/src/displayplacer.rs:187-224 | the result is `Ok` exactly when some display is described after the marker, and then it holds those displays. Otherwise it is `Err` with "No displays found in displayplacer output" |
| Displayplacer.ParseDisplayplacerOutputExample | src-tauri/src/displayplacer.rs:187-224 | output made of the marker line and the command `displayplacer "id:1 res:2560x1440 origin:(0,0) degree:0"` from the comment at line 206, each ended by a newline, parses to `Ok` holding exactly display "1", resolution 2560x1440, origin (0,0), rotation 0, enabled |
| Displayplacer.ExampleDescribed | src-tauri/src/displayplacer.rs:192-217 | the marker line followed by that command line describes exactly that one display |
| Displayplacer.LinesOfTwo | src-tauri/src/displayplacer.rs:192 | `lines` of two newline-ended lines, neither holding a newline nor ending in a carriage return, gives back those two lines |
| Displayplacer.DescribedAfterMarker | src-tauri/src/displayplacer.rs:192-197 | nothing before the first marker line, and not the marker line itself, contributes a display |
| Displayplacer.HarvestSource | src-tauri/src/displayplacer.rs:201-204 | every collected display comes from a line that, once trimmed, starts with `displayplacer` and contains both `id:` and `origin:` |
| Displayplacer.ChunkSource | src-tauri/src/displayplacer.rs:208-215 | every display read from a line comes from one of its `"`-separated pieces that contains both `id:` and `origin:` and parses |
| Text.SplitPiecesFree | src-tauri/src/displayplacer.rs:208 | no piece that `str::split` cuts a line into contains the separator |
| Text.JoinSplit | src-tauri/src/displayplacer.rs:304 | joining the pieces of `str::split` with the separator gives back the original text, so nothing is lost or reordered |
| Text.TrimStartWhereSpec | src-tauri/src/displayplacer.rs:303 | trimming the start removes only a prefix of matching characters, and the first character kept does not match |
| Text.TrimEndWhereSpec | src-tauri/src/displayplacer.rs:303 | trimming the end removes only a suffix of matching characters, and the last character kept does not match |
| Text.TokensAreWords | src-tauri/src/displayplacer.rs:251 | every piece `split_whitespace` yields is non-empty and contains no whitespace |
| Text.TokensAppend | src-tauri/src/displayplacer.rs:251 | `split_whitespace` of a text followed by one that is empty or starts with whitespace is the tokens of the first followed by the tokens of the second |
| Displayplacer.ToggleArgumentTokens | src-tauri/src/displayplacer.rs:151-152 | for a one-word id (non-empty, no whitespace), the toggle argument splits into exactly two words, `id:<id>` and `enabled:true` or `enabled:false` |
| Displayplacer.ToggleArgumentInjective | src-tauri/src/displayplacer.rs:151-152 | different (id, state) requests never produce the same argument |
| Displayplacer.ToggleArgumentReadBack | src-tauri/src/displayplacer.rs:151-152 | for a one-word id (non-empty, no whitespace), the display parser reads the requested id back out of the toggle argument and finds no resolution, origin or rotation in it. It reads `enabled` from the id alone: false only when `id:<id>` contains `disabled` |
| Displayplacer.ToggleDisabledOnlyInId | src-tauri/src/displayplacer.rs:151-152 | `disabled` occurs in a toggle argument exactly when it occurs in the word `id:<id>`, whichever state was requested |
| Displayplacer.IdWordNotDisabled | src-tauri/src/displayplacer.rs:248 | the word `id:<id>` never contains `disabled` when the id has no `i` |
| Displayplacer.ToggleOffReadsEnabled | src-tauri/src/displayplacer.rs:151-152 | for a one-word id (non-empty, no whitespace) without an `i`, the argument that disables the display parses as that display enabled, with no resolution, origin (0,0) and rotation 0 |
| Displayplacer.ToggleStateIgnored | src-tauri/src/displayplacer.rs:151-152 | for every id, the parser reads the same display (or none) out of the argument that enables a display and the one that disables it |
| Displayplacer.ToggleFields | src-tauri/src/displayplacer.rs:151-152 | for every id, the settings read from a toggle argument are those read from `id:<id>` alone: the state word sets nothing |
| Presets.DefaultStoreEmpty | src-tauri/src/presets.rs:20-27 | the default store has version "1.0" and no preset with any id |
| Presets.AddPreset | src-tauri/src/presets.rs:72-81 | adding lengthens the list by exactly one. Earlier presets and the version are unchanged, and the new preset, built from the given fields, is last and is returned |
| Presets.AddPresetFresh | src-tauri/src/presets.rs:72-81 | adding under a fresh id keeps ids unique, and the new preset is the one a later lookup of that id finds |
| Presets.DeleteAddedPreset | src-tauri/src/presets.rs:91 | deleting a preset just added under a fresh id gives back the store as it was |
| Presets.RetainMembers | src-tauri/src/presets.rs:91 | `retain` keeps exactly the presets whose id differs and never lengthens the list |
| Presets.RetainAppend | src-tauri/src/presets.rs:91 | `retain` over a concatenation retains each part, so the kept presets stay in their original order |
| Presets.RetainAbsent | src-tauri/src/presets.rs:91 | `retain` changes nothing exactly when no preset has the id |
| Presets.RetainUnique | src-tauri/src/presets.rs:91 | `retain` keeps ids unique |
| Presets.DeletePreset | src-tauri/src/presets.rs:88-92 | deleting only filters the preset list: the store keeps its version |
| Presets.DeletePresetMembers | src-tauri/src/presets.rs:91 | after deleting, no preset has the id, and every preset with another id is still there |
| Presets.DeletePresetAbsent | src-tauri/src/presets.rs:91 | deleting is a no-op exactly when no preset has the id |
| Presets.DeletePresetIdempotent | src-tauri/src/presets.rs:91 | deleting twice is the same as deleting once |
| Presets.DeletePresetUnique | src-tauri/src/presets.rs:91 | deleting keeps ids unique |
| Presets.FindIndex | src-tauri/src/presets.rs:107-111 | the lookup lands on the first preset with the id, and finds nothing exactly when no preset has it |
| Presets.FirstIsUnique | src-tauri/src/presets.rs:107-111 | there is only one first preset with a given id, and the lookup finds it |
| Presets.UpdatePreset | src-tauri/src/presets.rs:107-126 | an update fails with "Preset not found" exactly when no preset has the id. Otherwise only the first such preset changes: each of name, config and hotkey is replaced only when given, `id` and `createdAt` stay, the version and every other preset are untouched, and the returned preset is the stored one |
| Presets.UpdateKeepsHotkey | src-tauri/src/presets.rs:119-121 | an update never clears a hotkey |
| Presets.UpdateNothing | src-tauri/src/presets.rs:113-121 | an update that gives no field leaves the store as it was |
| Presets.UpdateIdempotent | src-tauri/src/presets.rs:107-121 | applying the same update twice is the same as applying it once |
| Presets.UpdatePresetUnique | src-tauri/src/presets.rs:107-121 | an update keeps ids unique |
| SystemTray.StripPrefix | src-tauri/src/system_tray.rs:184 | stripping succeeds exactly when the id starts with the prefix, and the prefix followed by the rest is the id |
| SystemTray.StripPrefixOfPrefixed | src-tauri/src/system_tray.rs:184 | stripping the prefix from the prefix followed by some text gives back that text |
| SystemTray.RouteFixedItems | src-tauri/src/system_tray.rs:128-140 | `show_hide`, `refresh`, `manage_presets` and `quit` route to toggle, refresh, show-main-window and quit |
| SystemTray.FixedItemsNotPresets | src-tauri/src/system_tray.rs:128-142 | none of the four fixed ids starts with `preset_`, so the order of the match arms does not hide a preset |
| SystemTray.RoutePresetItem | src-tauri/src/system_tray.rs:141-142 | the item `preset_<id>` routes to applying preset `<id>`, for every id, the empty one included |
| SystemTray.RouteApplyInverse | src-tauri/src/system_tray.rs:184-186 | an item routes to a preset only when its id is `preset_` followed by that preset's id |
| SystemTray.RouteUnknown | src-tauri/src/system_tray.rs:144-146 | an item is unknown exactly when it is none of the four fixed ids and does not start with `preset_` |
| SystemTray.UnknownItemNoEffect | src-tauri/src/system_tray.rs:144-146 | an unknown item changes nothing |
| SystemTray.ToggleWindow | src-tauri/src/system_tray.rs:151-162 | a window that reports itself visible is hidden. Any other window, including one whose visibility cannot be read, is shown and focused |
| SystemTray.ToggleWindowTwice | src-tauri/src/system_tray.rs:153-160 | toggling twice restores the visibility of a window whose visibility can be read |
| SystemTray.ToggleUnreadable | src-tauri/src/system_tray.rs:153 | a window whose visibility cannot be read counts as hidden, so every toggle shows it |
| SystemTray.ShowWindowIdempotent | src-tauri/src/system_tray.rs:165-172 | showing leaves the window visible, focused and not minimized, and showing again changes nothing |
| SystemTray.NoMainWindow | src-tauri/src/system_tray.rs:151-172 | without a main window, the show/hide item and the manage-presets item change nothing |
| SystemTray.RefreshEmitsOne | src-tauri/src/system_tray.rs:175-179 | the refresh item emits exactly one `refresh-displays` event and changes nothing else |
| SystemTray.ApplyPresetEmitsOne | src-tauri/src/system_tray.rs:182-196 | a preset item emits exactly one `apply-preset-from-tray` event carrying the stripped id, and changes nothing else |
| SystemTray.QuitExitsZero | src-tauri/src/system_tray.rs:138-140 | the quit item sets exit status 0 and touches nothing else |
| SystemTray.ShowHideTwice | src-tauri/src/system_tray.rs:129-131 | clicking show/hide twice restores the main window's visibility when it can be read, and emits nothing |
| SystemTray.HandleTrayMenuEventFrame | src-tauri/src/system_tray.rs:127-148 | only `quit` sets an exit status; only `refresh` and preset items emit, one event appended each time; only show/hide and manage-presets touch the window |

## Left out

- Running `displayplacer` (`get_displays`, `apply_config` and the process part of `toggle_display_enabled`) is not modelled: it is process I/O. That includes exit statuses, stderr text and lossy UTF-8 decoding. Only the output parser and the argument builder are modelled. `DisplayConfig.raw_command` is just the unchanged stdout.
- Loading and saving the preset file (`get_presets_path`, `load_presets`, `save_presets`, JSON through serde) is not modelled: it is file I/O. A failed update or a failed load means nothing is saved; the model returns an error instead of a new store.
- The uuid and the RFC 3339 timestamp of a new preset come from foreign libraries. `AddPreset` takes them as parameters. Where uniqueness matters, the lemmas require the id to be fresh.
- `src-tauri/src/hotkeys.rs` is not part of this model. Shortcut parsing and registration belong to the global-shortcut plugin, whose code is not available.
- `src-tauri/src/lib.rs` is not part of this model. It is application wiring plus window placement in floating point.
- Building the tray menu and icon (`init_system_tray`, `create_tray_menu`, `create_presets_submenu`, `update_tray_menu`), tray icon clicks (`handle_tray_event`) and `show_tray_notification` only build UI or log, so they are left out.
- The `println!` logging of every handler is left out.
- Errors from `hide`, `show`, `set_focus`, `unminimize` and `emit` are left out, because the handlers ignore them.
- The window system is reduced to a visible flag, a readable-visibility flag, focus and minimisation. Other window effects, such as which window comes to the front, are not modelled.
- SystemTray.ToggleWindow: when visibility cannot be read, the model assumes `is_visible` keeps failing afterwards, because the flag is part of the window state.

=== FILE: displayplacer.dfy ===
/** The pure part of the displayplacer bindings: reading the displays out of
    the text `displayplacer list` prints, and building the argument that
    turns one display on or off. Running the tool itself is not modelled. */
module Displayplacer {
  import opened Results
  import opened Text
  import opened Integers

  /** One display as `displayplacer list` describes it. `resolution` is kept
      as the raw text after `res:`; rotation is whatever integer followed
      `degree:`, legal angle or not. */
  datatype Display = Display(
    id: string,
    resolution: string,
    origin: (I32, I32),
    rotation: I32,
    enabled: bool)

  // ---------------------------------------------------------------------
  // Coordinates

  predicate IsParen(c: char) {
    c == '(' || c == ')'
  }

  /** Reads `(x,y)`: every `(` and `)` at either end is trimmed away, and
      what is left must be exactly two comma-separated `i32`s. */
  function ParseCoordinates(s: string): Option<(I32, I32)> {
    var cleaned := TrimWhere(s, IsParen);
    var parts := Split(cleaned, ',');
    if |parts| == 2 then
      match ParseI32(parts[0])
      case None => None
      case Some(x) =>
        match ParseI32(parts[1])
        case None => None
        case Some(y) => Some((x, y))
    else None
  }

  /** Coordinates never parse unless exactly one comma is left once the
      parentheses are trimmed. */
  lemma ParseCoordinatesOneComma(s: string)
    requires ParseCoordinates(s).Some?
    ensures multiset(TrimWhere(s, IsParen))[','] == 1
  {
    SplitCount(TrimWhere(s, IsParen), ',');
  }

  /** The text displayplacer prints for an origin. */
  function FormatCoordinates(x: I32, y: I32): string {
    "(" + FormatI32(x) + "," + FormatI32(y) + ")"
  }

  /** Once the parentheses are trimmed, coordinates parse exactly when the
      text is one `i32`, a comma, and another `i32`. */
  lemma ParseCoordinatesExactly(s: string, a: string, b: string)
    requires TrimWhere(s, IsParen) == a + "," + b
    requires ',' !in a && ',' !in b
    ensures ParseCoordinates(s).Some? <==> ParseI32(a).Some? && ParseI32(b).Some?
    ensures ParseCoordinates(s).Some? ==>
      ParseCoordinates(s).value == (ParseI32(a).value, ParseI32(b).value)
  {
    assert Join([a, b], ',') == a + "," + b;
    SplitJoin([a, b], ',');
  }

  lemma FormatI32Plain(x: I32)
    ensures ',' !in FormatI32(x) && |FormatI32(x)| > 0
    ensures !IsParen(FormatI32(x)[0]) && !IsParen(FormatI32(x)[|FormatI32(x)| - 1])
    ensures IsWord(FormatI32(x))
  {
    var f := FormatI32(x);
    FormatI32Chars(x);
    forall i | 0 <= i < |f| ensures f[i] != ',' {}
  }

  lemma TrimFormattedCoordinates(x: I32, y: I32)
    ensures TrimWhere(FormatCoordinates(x, y), IsParen) == FormatI32(x) + "," + FormatI32(y)
  {
    var core := FormatI32(x) + "," + FormatI32(y);
    FormatI32Plain(x);
    FormatI32Plain(y);
    assert core[0] == FormatI32(x)[0];
    assert core[|core| - 1] == FormatI32(y)[|FormatI32(y)| - 1];
    assert FormatCoordinates(x, y) == "(" + core + ")";
    TrimWhereSurrounded("(", core, ")", IsParen);
  }

  /** Every pair of `i32`s, negative ones included, survives printing and
      parsing back. */
  lemma ParseCoordinatesRoundTrip(x: I32, y: I32)
    ensures ParseCoordinates(FormatCoordinates(x, y)) == Some((x, y))
  {
    TrimFormattedCoordinates(x, y);
    FormatI32Plain(x);
    FormatI32Plain(y);
    ParseCoordinatesExactly(FormatCoordinates(x, y), FormatI32(x), FormatI32(y));
    ParseFormatI32(x);
    ParseFormatI32(y);
  }

  // ---------------------------------------------------------------------
  // One display description

  /** The four settings a display description can carry. */
  datatype Key = IdKey | ResKey | OriginKey | DegreeKey

  function Prefix(k: Key): string {
    match k
    case IdKey => "id:"
    case ResKey => "res:"
    case OriginKey => "origin:"
    case DegreeKey => "degree:"
  }

  /** The settings read so far while scanning the tokens of one description. */
  datatype Fields = Fields(id: string, resolution: string, origin: (I32, I32), rotation: I32)

  /** Nothing read yet: empty id and resolution, origin (0,0), rotation 0. */
  const Unset := Fields("", "", (0, 0), 0)

  /** One iteration of the token loop. An `origin:` whose coordinates do not
      parse keeps the earlier origin, while a `degree:` that does not parse
      resets the rotation to 0. */
  function ReadToken(f: Fields, tok: string): Fields {
    if StartsWith(tok, "id:") then f.(id := tok[3..])
    else if StartsWith(tok, "res:") then f.(resolution := tok[4..])
    else if StartsWith(tok, "origin:") then
      match ParseCoordinates(tok[7..])
      case Some(c) => f.(origin := c)
      case None => f
    else if StartsWith(tok, "degree:") then f.(rotation := ParseI32(tok[7..]).UnwrapOr(0))
    else f
  }

  /** The token loop, in order, from `Unset`. */
  function ReadTokens(toks: seq<string>): Fields
    decreases |toks|
  {
    if |toks| == 0 then Unset else ReadToken(ReadTokens(toks[..|toks| - 1]), toks[|toks| - 1])
  }

  /** Reads one quoted chunk such as `id:1 res:2560x1440 origin:(0,0) degree:0`.
      The id comes from the last `id:` token; without one, or when that
      token is a bare `id:`, there is no display. */
  function ParseDisplayString(config: string): (r: Option<Display>)
    ensures r.Some? ==> r.value.id != ""
  {
    var f := ReadTokens(Tokens(config));
    if f.id != "" then
      Some(Display(f.id, f.resolution, f.origin, f.rotation, !Contains(config, "disabled")))
    else None
  }

  // Which token decides each setting.

  /** Token `tok` changes the setting `k` when read. */
  predicate Sets(k: Key, tok: string) {
    StartsWith(tok, Prefix(k)) && (k == OriginKey ==> ParseCoordinates(tok[7..]).Some?)
  }

  /** `toks[i]` is the last token that changes setting `k`. */
  predicate IsLast(k: Key, toks: seq<string>, i: int) {
    0 <= i < |toks| && Sets(k, toks[i]) && forall j :: i < j < |toks| ==> !Sets(k, toks[j])
  }

  /** No token changes setting `k`. */
  predicate NeverSets(k: Key, toks: seq<string>) {
    forall j :: 0 <= j < |toks| ==> !Sets(k, toks[j])
  }

  /** The value of one setting, whatever its type. */
  datatype Setting = Str(text: string) | Coords(coords: (I32, I32)) | Angle(angle: I32)

  /** Setting `k` of `f`. */
  function Get(k: Key, f: Fields): Setting {
    match k
    case IdKey => Str(f.id)
    case ResKey => Str(f.resolution)
    case OriginKey => Coords(f.origin)
    case DegreeKey => Angle(f.rotation)
  }

  /** The value a token that sets `k` gives it. */
  function Given(k: Key, tok: string): Setting
    requires Sets(k, tok)
  {
    match k
    case IdKey => Str(tok[3..])
    case ResKey => Str(tok[4..])
    case OriginKey => Coords(ParseCoordinates(tok[7..]).value)
    case DegreeKey => Angle(ParseI32(tok[7..]).UnwrapOr(0))
  }

  /** One token changes exactly the setting it names. */
  lemma ReadTokenStep(k: Key, f: Fields, tok: string)
    ensures Get(k, ReadToken(f, tok)) == if Sets(k, tok) then Given(k, tok) else Get(k, f)
  {
    // The four prefixes start with different letters, so a token names at
    // most one setting.
    if |tok| > 0 {
      assert StartsWith(tok, "id:") ==> tok[0] == 'i';
      assert StartsWith(tok, "res:") ==> tok[0] == 'r';
      assert StartsWith(tok, "origin:") ==> tok[0] == 'o';
      assert StartsWith(tok, "degree:") ==> tok[0] == 'd';
      match k
      case IdKey =>
      case ResKey =>
      case OriginKey =>
      case DegreeKey =>
    }
  }

  lemma NeverSetsInit(k: Key, toks: seq<string>)
    requires |toks| > 0 && NeverSets(k, toks)
    ensures NeverSets(k, toks[..|toks| - 1]) && !Sets(k, toks[|toks| - 1])
  {
    var init := toks[..|toks| - 1];
    forall j | 0 <= j < |init| ensures !Sets(k, init[j]) {
      assert init[j] == toks[j];
    }
  }

  lemma IsLastInit(k: Key, toks: seq<string>, i: int)
    requires IsLast(k, toks, i) && i < |toks| - 1
    ensures IsLast(k, toks[..|toks| - 1], i) && !Sets(k, toks[|toks| - 1])
  {
    var init := toks[..|toks| - 1];
    forall j | i < j < |init| ensures !Sets(k, init[j]) {
      assert init[j] == toks[j];
    }
  }

  lemma ReadTokensSnoc(k: Key, toks: seq<string>)
    requires |toks| > 0
    ensures Get(k, ReadTokens(toks)) ==
      if Sets(k, toks[|toks| - 1]) then Given(k, toks[|toks| - 1])
      else Get(k, ReadTokens(toks[..|toks| - 1]))
  {
    ReadTokenStep(k, ReadTokens(toks[..|toks| - 1]), toks[|toks| - 1]);
  }

  /** A setting no token gives keeps its initial value. */
  lemma {:induction false} ReadTokensNever(k: Key, toks: seq<string>)
    requires NeverSets(k, toks)
    ensures Get(k, ReadTokens(toks)) == Get(k, Unset)
    decreases |toks|
  {
    if |toks| > 0 {
      NeverSetsInit(k, toks);
      ReadTokensNever(k, toks[..|toks| - 1]);
      ReadTokensSnoc(k, toks);
    }
  }

  /** A setting is the value its last token gives it: no other token has
      any influence on it. */
  lemma {:induction false} ReadTokensLast(k: Key, toks: seq<string>, i: int)
    requires IsLast(k, toks, i)
    ensures Get(k, ReadTokens(toks)) == Given(k, toks[i])
    decreases |toks|
  {
    ReadTokensSnoc(k, toks);
    if i < |toks| - 1 {
      IsLastInit(k, toks, i);
      ReadTokensLast(k, toks[..|toks| - 1], i);
    }
  }

  /** Each setting is the value its last token gives it, or its initial
      value when no token gives it one. */
  lemma ReadTokensSetting(k: Key, toks: seq<string>)
    ensures NeverSets(k, toks) ==> Get(k, ReadTokens(toks)) == Get(k, Unset)
    ensures forall i :: IsLast(k, toks, i) ==> Get(k, ReadTokens(toks)) == Given(k, toks[i])
  {
    if NeverSets(k, toks) {
      ReadTokensNever(k, toks);
    }
    forall i | IsLast(k, toks, i) ensures Get(k, ReadTokens(toks)) == Given(k, toks[i]) {
      ReadTokensLast(k, toks, i);
    }
  }

  /** A chunk yields no display exactly when it has no `id:` token, or its
      last `id:` token is bare; otherwise the id is that token's text. */
  lemma ParseDisplayStringId(config: string)
    ensures var toks := Tokens(config);
      ParseDisplayString(config).None? <==>
        NeverSets(IdKey, toks) || exists i :: IsLast(IdKey, toks, i) && toks[i] == "id:"
    ensures var toks := Tokens(config);
      forall i :: IsLast(IdKey, toks, i) && toks[i] != "id:" ==>
        ParseDisplayString(config).Some? && ParseDisplayString(config).value.id == toks[i][3..]
  {
    var toks := Tokens(config);
    ReadTokensSetting(IdKey, toks);
    if !NeverSets(IdKey, toks) {
      var i :| 0 <= i < |toks| && Sets(IdKey, toks[i]);
      var last := LastSetting(IdKey, toks, i);
      assert toks[last] == "id:" <==> toks[last][3..] == "";
    }
  }

  /** A bare `id:` after a real one discards it: the chunk yields no
      display although it names one, whatever the id. */
  lemma LaterBareIdDiscards(id: string)
    ensures ParseDisplayString("id:" + id + " id:").None?
  {
    var chunk := "id:" + id + " id:";
    TokensAppend("id:" + id, " id:");
    TokensSpaceWord("id:");
    assert [' '] + "id:" == " id:";
    var toks := Tokens(chunk);
    assert toks[|toks| - 1] == "id:";
    SetsPrefixed(IdKey, "");
    assert "id:" + "" == "id:";
    assert IsLast(IdKey, toks, |toks| - 1);
    ParseDisplayStringId(chunk);
  }

  /** The last token that sets `k`, at or after one that does. */
  lemma {:induction false} LastSetting(k: Key, toks: seq<string>, i: int) returns (last: int)
    requires 0 <= i < |toks| && Sets(k, toks[i])
    ensures i <= last && IsLast(k, toks, last)
    decreases |toks| - i
  {
    if exists j :: i < j < |toks| && Sets(k, toks[j]) {
      var j :| i < j < |toks| && Sets(k, toks[j]);
      last := LastSetting(k, toks, j);
    } else {
      last := i;
    }
  }

  /** In a parsed display, the resolution is the text of the last `res:`
      token (empty without one), the origin that of the last `origin:` token
      whose coordinates parse ((0,0) without one), the rotation that of the
      last `degree:` token (0 without one, or when it does not parse), and
      the display is disabled exactly when the chunk mentions `disabled`. */
  lemma ParseDisplayStringFields(config: string)
    requires ParseDisplayString(config).Some?
    ensures var d, toks := ParseDisplayString(config).value, Tokens(config);
      && (d.enabled <==> !Contains(config, "disabled"))
      && (NeverSets(ResKey, toks) ==> d.resolution == "")
      && (forall i :: IsLast(ResKey, toks, i) ==> d.resolution == toks[i][4..])
      && (NeverSets(OriginKey, toks) ==> d.origin == (0, 0))
      && (forall i :: IsLast(OriginKey, toks, i) ==> d.origin == ParseCoordinates(toks[i][7..]).value)
      && (NeverSets(DegreeKey, toks) ==> d.rotation == 0)
      && (forall i :: IsLast(DegreeKey, toks, i) ==> d.rotation == ParseI32(toks[i][7..]).UnwrapOr(0))
  {
    var toks := Tokens(config);
    ReadTokensSetting(ResKey, toks);
    ReadTokensSetting(OriginKey, toks);
    ReadTokensSetting(DegreeKey, toks);
  }

  /** A token that sets `k` starts with the first letter of `k`'s prefix. */
  lemma SetsLetter(k: Key, tok: string)
    requires Sets(k, tok)
    ensures |tok| > 0 && tok[0] == Prefix(k)[0]
  {
    assert tok[..|Prefix(k)|][0] == tok[0];
  }

  /** The text after a setting's prefix is what the setting reads. */
  lemma SetsPrefixed(k: Key, v: string)
    ensures Sets(k, Prefix(k) + v) <==> (k == OriginKey ==> ParseCoordinates(v).Some?)
    ensures (Prefix(k) + v)[|Prefix(k)|..] == v
  {
    var t := Prefix(k) + v;
    assert t[..|Prefix(k)|] == Prefix(k);
  }

  /** A token that starts with the prefix of `k` sets no other setting. */
  lemma OnlySetting(k: Key, tok: string)
    requires StartsWith(tok, Prefix(k))
    ensures forall k' :: k' != k ==> !Sets(k', tok)
  {
    forall k' | Sets(k', tok) ensures k' == k {
      SetsLetter(k', tok);
      assert tok[..|Prefix(k)|][0] == tok[0];
    }
  }

  lemma WordAfterPrefix(prefix: string, w: string)
    requires IsWord(prefix) && (w == [] || IsWord(w))
    ensures IsWord(prefix + w)
  {
    var t := prefix + w;
    forall j | 0 <= j < |t| ensures !IsWhitespace(t[j]) {
      if j >= |prefix| { assert t[j] == w[j - |prefix|]; }
    }
  }

  lemma FormattedCoordinatesWord(x: I32, y: I32)
    ensures IsWord(FormatCoordinates(x, y))
  {
    var fx, fy := FormatI32(x), FormatI32(y);
    var t := FormatCoordinates(x, y);
    FormatI32Plain(x);
    FormatI32Plain(y);
    assert t == "(" + fx + "," + fy + ")";
    forall j | 0 <= j < |t| ensures !IsWhitespace(t[j]) {
      if 1 <= j < 1 + |fx| {
        assert t[j] == fx[j - 1];
      } else if 2 + |fx| <= j < 2 + |fx| + |fy| {
        assert t[j] == fy[j - 2 - |fx|];
      }
    }
  }

  /** The settings of a display as displayplacer writes them, one word each. */
  function DescriptionWords(d: Display): seq<string> {
    [ "id:" + d.id,
      "res:" + d.resolution,
      "origin:" + FormatCoordinates(d.origin.0, d.origin.1),
      "degree:" + FormatI32(d.rotation) ]
  }

  /** The description displayplacer gives of a display, as in the
      documented `apply_config` example `id:37D88 res:2560x1440
      origin:(0,0) degree:0`: its settings separated by single spaces. */
  function DescribeDisplay(d: Display): string {
    Join(DescriptionWords(d), ' ')
  }

  lemma PrefixIsWord(k: Key)
    ensures IsWord(Prefix(k))
  {
  }

  lemma DescriptionWordsAreWords(d: Display)
    requires IsWord(d.id) && (d.resolution == "" || IsWord(d.resolution))
    ensures forall i :: 0 <= i < |DescriptionWords(d)| ==> IsWord(DescriptionWords(d)[i])
  {
    var words := DescriptionWords(d);
    PrefixIsWord(IdKey);
    PrefixIsWord(ResKey);
    PrefixIsWord(OriginKey);
    PrefixIsWord(DegreeKey);
    FormattedCoordinatesWord(d.origin.0, d.origin.1);
    FormatI32Plain(d.rotation);
    WordAfterPrefix(Prefix(IdKey), d.id);
    WordAfterPrefix(Prefix(ResKey), d.resolution);
    WordAfterPrefix(Prefix(OriginKey), FormatCoordinates(d.origin.0, d.origin.1));
    WordAfterPrefix(Prefix(DegreeKey), FormatI32(d.rotation));
  }

  lemma TokensOfDescription(d: Display)
    requires IsWord(d.id) && (d.resolution == "" || IsWord(d.resolution))
    ensures Tokens(DescribeDisplay(d)) == DescriptionWords(d)
  {
    DescriptionWordsAreWords(d);
    TokensOfJoin(DescriptionWords(d));
  }

  /** Where a description puts each setting. */
  function WordIndex(k: Key): nat {
    match k
    case IdKey => 0
    case ResKey => 1
    case OriginKey => 2
    case DegreeKey => 3
  }

  /** The settings of a display, as the token loop would hold them. */
  function FieldsOf(d: Display): Fields {
    Fields(d.id, d.resolution, d.origin, d.rotation)
  }

  /** Each word of a description sets only the setting it names. */
  lemma DescriptionWordOnly(d: Display, j: int)
    requires 0 <= j < 4
    ensures forall k :: Sets(k, DescriptionWords(d)[j]) ==> WordIndex(k) == j
  {
    var words := DescriptionWords(d);
    if j == 0 {
      SetsPrefixed(IdKey, d.id);
      OnlySetting(IdKey, words[0]);
    } else if j == 1 {
      SetsPrefixed(ResKey, d.resolution);
      OnlySetting(ResKey, words[1]);
    } else if j == 2 {
      SetsPrefixed(OriginKey, FormatCoordinates(d.origin.0, d.origin.1));
      OnlySetting(OriginKey, words[2]);
    } else {
      SetsPrefixed(DegreeKey, FormatI32(d.rotation));
      OnlySetting(DegreeKey, words[3]);
    }
  }

  /** Each word of a description sets its setting to the display's value. */
  lemma DescriptionWordGiven(d: Display, k: Key)
    ensures Sets(k, DescriptionWords(d)[WordIndex(k)])
    ensures Given(k, DescriptionWords(d)[WordIndex(k)]) == Get(k, FieldsOf(d))
  {
    match k
    case IdKey => DescriptionIdGiven(d);
    case ResKey => DescriptionResGiven(d);
    case OriginKey => DescriptionOriginGiven(d);
    case DegreeKey => DescriptionDegreeGiven(d);
  }

  lemma DescriptionIdGiven(d: Display)
    ensures Sets(IdKey, DescriptionWords(d)[0])
    ensures Given(IdKey, DescriptionWords(d)[0]) == Str(d.id)
  {
    SetsPrefixed(IdKey, d.id);
  }

  lemma DescriptionResGiven(d: Display)
    ensures Sets(ResKey, DescriptionWords(d)[1])
    ensures Given(ResKey, DescriptionWords(d)[1]) == Str(d.resolution)
  {
    SetsPrefixed(ResKey, d.resolution);
  }

  lemma DescriptionOriginGiven(d: Display)
    ensures Sets(OriginKey, DescriptionWords(d)[2])
    ensures Given(OriginKey, DescriptionWords(d)[2]) == Coords(d.origin)
  {
    SetsPrefixed(OriginKey, FormatCoordinates(d.origin.0, d.origin.1));
    ParseCoordinatesRoundTrip(d.origin.0, d.origin.1);
  }

  lemma DescriptionDegreeGiven(d: Display)
    ensures Sets(DegreeKey, DescriptionWords(d)[3])
    ensures Given(DegreeKey, DescriptionWords(d)[3]) == Angle(d.rotation)
  {
    SetsPrefixed(DegreeKey, FormatI32(d.rotation));
    ParseFormatI32(d.rotation);
  }

  lemma DescriptionWordLast(d: Display, k: Key)
    ensures IsLast(k, DescriptionWords(d), WordIndex(k))
    ensures Given(k, DescriptionWords(d)[WordIndex(k)]) == Get(k, FieldsOf(d))
  {
    DescriptionWordGiven(d, k);
    forall j | WordIndex(k) < j < 4 ensures !Sets(k, DescriptionWords(d)[j]) {
      DescriptionWordOnly(d, j);
    }
  }

  lemma ReadDescriptionWords(d: Display)
    ensures ReadTokens(DescriptionWords(d)) == FieldsOf(d)
  {
    var words := DescriptionWords(d);
    DescriptionWordLast(d, IdKey);
    ReadTokensLast(IdKey, words, 0);
    DescriptionWordLast(d, ResKey);
    ReadTokensLast(ResKey, words, 1);
    DescriptionWordLast(d, OriginKey);
    ReadTokensLast(OriginKey, words, 2);
    DescriptionWordLast(d, DegreeKey);
    ReadTokensLast(DegreeKey, words, 3);
  }

  /** Describing a display and parsing the description gives the display
      back, whenever its id is a single word (non-empty, no whitespace) and
      its resolution is a single word or empty; only `enabled` is
      recomputed from the text. */
  lemma ParseDescribedDisplay(d: Display)
    requires IsWord(d.id) && (d.resolution == "" || IsWord(d.resolution))
    ensures ParseDisplayString(DescribeDisplay(d))
      == Some(d.(enabled := !Contains(DescribeDisplay(d), "disabled")))
  {
    TokensOfDescription(d);
    ReadDescriptionWords(d);
  }

  lemma JoinFour(a: string, b: string, c: string, d: string, sep: char)
    ensures Join([a, b, c, d], sep) == a + [sep] + b + [sep] + c + [sep] + d
  {
    assert [a, b, c, d][1..] == [b, c, d];
    assert [b, c, d][1..] == [c, d];
    assert [c, d][1..] == [d];
    var cd := c + [sep] + d;
    var bcd := b + [sep] + cd;
    assert Join([d], sep) == d;
    assert Join([c, d], sep) == cd;
    assert Join([b, c, d], sep) == bcd;
    assert Join([a, b, c, d], sep) == a + [sep] + bcd;
    assert b + [sep] + cd == b + [sep] + c + [sep] + d;
    assert a + [sep] + bcd == a + [sep] + b + [sep] + c + [sep] + d;
  }

  /** The words of the display in the unit test. */
  lemma ExampleWords()
    ensures DescriptionWords(Display("1", "2560x1440", (0, 0), 0, true))
      == ["id:1", "res:2560x1440", "origin:(0,0)", "degree:0"]
  {
    assert FormatI32(0) == "0";
    assert FormatCoordinates(0, 0) == "(0,0)";
    assert "id:" + "1" == "id:1";
    assert "res:" + "2560x1440" == "res:2560x1440";
    assert "origin:" + "(0,0)" == "origin:(0,0)";
    assert "degree:" + "0" == "degree:0";
  }

  /** The chunk of the unit test and of the comment on the chunk loop. */
  const ExampleChunk := "id:1 res:2560x1440 origin:(0,0) degree:0"

  /** The chunk of the unit test, as `DescribeDisplay` writes it. */
  lemma ExampleDescription()
    ensures DescribeDisplay(Display("1", "2560x1440", (0, 0), 0, true)) == ExampleChunk
  {
    ExampleWords();
    JoinFour("id:1", "res:2560x1440", "origin:(0,0)", "degree:0", ' ');
    ExampleJoined();
  }

  /** The four words of the unit test's chunk, joined one space at a time. */
  lemma ExampleJoined()
    ensures "id:1" + [' '] + "res:2560x1440" + [' '] + "origin:(0,0)" + [' '] + "degree:0"
      == ExampleChunk
  {
    assert "id:1" + [' '] == "id:1 ";
    assert "id:1 " + "res:2560x1440" == "id:1 res:2560x1440";
    assert "id:1 res:2560x1440" + [' '] == "id:1 res:2560x1440 ";
    assert "id:1 res:2560x1440 " + "origin:(0,0)" == "id:1 res:2560x1440 origin:(0,0)";
    assert "id:1 res:2560x1440 origin:(0,0)" + [' '] == "id:1 res:2560x1440 origin:(0,0) ";
    assert "id:1 res:2560x1440 origin:(0,0) " + "degree:0" == "id:1 res:2560x1440 origin:(0,0) degree:0";
  }

  /** Facts about the unit test's chunk, read off its four words. */
  lemma ExampleChunkFacts()
    ensures IsDisplayChunk(ExampleChunk)
    ensures '"' !in ExampleChunk && '\n' !in ExampleChunk && 'E' !in ExampleChunk && 'b' !in ExampleChunk
  {
    ExampleJoined();
    ExampleWordsFacts(ExampleChunk);
  }

  lemma ExampleWordsFacts(c: string)
    requires c == "id:1" + [' '] + "res:2560x1440" + [' '] + "origin:(0,0)" + [' '] + "degree:0"
    ensures IsDisplayChunk(c)
    ensures '"' !in c && '\n' !in c && 'E' !in c && 'b' !in c
  {
    assert c[0] == 'i' && c[1] == 'd' && c[2] == ':';
    assert c[0..3] == "id:";
    assert OccursAt(c, "id:", 0);
    assert c[19..26] == "origin:";
    assert OccursAt(c, "origin:", 19);
    forall x | x in "\"\nEb" ensures x !in c {
      assert x !in "id:1" && x !in "res:2560x1440" && x !in "origin:(0,0)" && x !in "degree:0" && x != ' ';
    }
  }

  /** The chunk of the unit test does not mention `disabled`: it has no `b`. */
  lemma ExampleNotDisabled()
    ensures !Contains(ExampleChunk, "disabled")
  {
    ExampleChunkFacts();
    if Contains(ExampleChunk, "disabled") {
      ContainsChar(ExampleChunk, "disabled", 'b');
      assert false;
    }
  }

  /** The chunk of the unit test reads as display "1", 2560x1440 at (0,0),
      unrotated and enabled. */
  lemma ParseDisplayStringExample()
    ensures ParseDisplayString(ExampleChunk)
      == Some(Display("1", "2560x1440", (0, 0), 0, true))
  {
    ParseDescribedDisplay(Display("1", "2560x1440", (0, 0), 0, true));
    ExampleDescription();
    ExampleNotDisabled();
  }

  // ---------------------------------------------------------------------
  // The output of `displayplacer list`

  /** The line after which displayplacer prints the command reproducing the
      current layout. */
  const Marker := "Execute the command below"

  const NoDisplaysError := "No displays found in displayplacer output"

  /** A line that is a displayplacer command with at least one display. */
  predicate IsCommandLine(line: string) {
    StartsWith(Trim(line), "displayplacer") && Contains(line, "id:") && Contains(line, "origin:")
  }

  /** A quoted piece that describes a display. */
  predicate IsDisplayChunk(part: string) {
    Contains(part, "id:") && Contains(part, "origin:")
  }

  /** The displays read from the pieces of a command line, in order. */
  function ChunkDisplays(parts: seq<string>): seq<Display>
    decreases |parts|
  {
    if |parts| == 0 then []
    else
      var last := parts[|parts| - 1];
      ChunkDisplays(parts[..|parts| - 1])
        + (if IsDisplayChunk(last) && ParseDisplayString(last).Some?
           then [ParseDisplayString(last).value] else [])
  }

  /** The displays of one command line: its `"`-separated pieces that
      describe a display. */
  function LineDisplays(line: string): seq<Display> {
    ChunkDisplays(Split(line, '"'))
  }

  /** A line after the marker that contributes displays. A later line that
      repeats the marker is skipped like the marker line itself. */
  predicate Contributes(line: string) {
    !Contains(line, Marker) && IsCommandLine(line)
  }

  /** The displays of all contributing lines, in order. */
  function Harvest(lines: seq<string>): seq<Display>
    decreases |lines|
  {
    if |lines| == 0 then []
    else
      var last := lines[|lines| - 1];
      Harvest(lines[..|lines| - 1]) + (if Contributes(last) then LineDisplays(last) else [])
  }

  /** The index of the first marker line, if any. */
  function FirstMarker(lines: seq<string>): (r: Option<nat>)
    ensures r.Some? ==> r.value < |lines| && Contains(lines[r.value], Marker)
    ensures r.Some? ==> forall j :: 0 <= j < r.value ==> !Contains(lines[j], Marker)
    ensures r.None? ==> forall j :: 0 <= j < |lines| ==> !Contains(lines[j], Marker)
    decreases |lines|
  {
    if |lines| == 0 then None
    else if Contains(lines[0], Marker) then Some(0)
    else match FirstMarker(lines[1..])
      case None => None
      case Some(k) => Some(k + 1)
  }

  /** What the output describes: the displays of the contributing lines
      strictly after the first marker line; none without a marker. */
  function Described(lines: seq<string>): seq<Display> {
    match FirstMarker(lines)
    case None => []
    case Some(k) => Harvest(lines[k + 1..])
  }

  /** The state of the pass over the lines: whether the marker has been
      seen, and the displays collected so far. */
  datatype Scan = Scan(found: bool, displays: seq<Display>)

  /** One iteration of the pass: a marker line sets the flag and is skipped;
      after the marker, a command line adds the displays of its chunks. */
  function ScanLine(st: Scan, line: string): Scan {
    if Contains(line, Marker) then st.(found := true)
    else if st.found && IsCommandLine(line) then st.(displays := st.displays + LineDisplays(line))
    else st
  }

  /** The pass over `lines`, in order, from an unset flag and no displays. */
  function ScanLines(lines: seq<string>): Scan
    decreases |lines|
  {
    if |lines| == 0 then Scan(false, [])
    else ScanLine(ScanLines(lines[..|lines| - 1]), lines[|lines| - 1])
  }

  /** Before any marker, a marker line is the first one; any other line
      leaves the output without a marker. */
  lemma FirstMarkerSnocNone(init: seq<string>, line: string)
    requires FirstMarker(init).None?
    ensures FirstMarker(init + [line]) == if Contains(line, Marker) then Some(|init|) else None
  {
    var lines := init + [line];
    assert forall j :: 0 <= j < |init| ==> lines[j] == init[j];
    assert lines[|init|] == line;
  }

  /** Once there is a marker, a further line does not move the first one. */
  lemma FirstMarkerSnocSome(init: seq<string>, line: string, k: nat)
    requires FirstMarker(init) == Some(k)
    ensures FirstMarker(init + [line]) == Some(k)
    ensures (init + [line])[k + 1..] == init[k + 1..] + [line]
  {
    var lines := init + [line];
    assert lines[k] == init[k];
    assert forall j :: 0 <= j < k ==> lines[j] == init[j];
  }

  lemma HarvestAppend(lines: seq<string>, line: string)
    ensures Harvest(lines + [line])
      == Harvest(lines) + (if Contributes(line) then LineDisplays(line) else [])
  {
    assert (lines + [line])[..|lines|] == lines;
  }

  /** The one-flag pass collects exactly the displays `Described` names:
      the flag is up once a marker line has been seen, and what it gathers
      are the displays of the contributing lines after the first marker. */
  lemma {:induction false} ScanLinesDescribed(lines: seq<string>)
    ensures ScanLines(lines).found <==> FirstMarker(lines).Some?
    ensures ScanLines(lines).displays == Described(lines)
    decreases |lines|
  {
    if |lines| > 0 {
      var init, line := lines[..|lines| - 1], lines[|lines| - 1];
      assert lines == init + [line];
      ScanLinesDescribed(init);
      match FirstMarker(init)
      case None =>
        FirstMarkerSnocNone(init, line);
      case Some(k) =>
        FirstMarkerSnocSome(init, line, k);
        HarvestAppend(init[k + 1..], line);
    }
  }

  /** `parse_displayplacer_output`: one pass over the lines with a flag
      that records whether the marker has been seen. */
  method ParseDisplayplacerOutput(output: string) returns (r: Result<seq<Display>, string>)
    ensures r.Ok? <==> Described(Lines(output)) != []
    ensures r.Ok? ==> r.value == Described(Lines(output))
    ensures r.Err? ==> r.error == NoDisplaysError
  {
    var lines := Lines(output);
    var displays: seq<Display> := [];
    var foundExecuteLine := false;
    var i := 0;
    while i < |lines|
      invariant 0 <= i <= |lines|
      invariant ScanLines(lines[..i]) == Scan(foundExecuteLine, displays)
    {
      var line := lines[i];
      assert lines[..i + 1][..i] == lines[..i];
      if Contains(line, Marker) {
        foundExecuteLine := true;
      } else if foundExecuteLine && IsCommandLine(line) {
        displays := displays + LineDisplays(line);
      }
      i := i + 1;
    }
    assert lines[..i] == lines;
    ScanLinesDescribed(lines);
    if |displays| == 0 {
      return Err(NoDisplaysError);
    }
    return Ok(displays);
  }

  /** Nothing before the first marker line can contribute a display. */
  lemma DescribedAfterMarker(before: seq<string>, marker: string, after: seq<string>)
    requires forall j :: 0 <= j < |before| ==> !Contains(before[j], Marker)
    requires Contains(marker, Marker)
    ensures Described(before + [marker] + after) == Harvest(after)
  {
    var lines := before + [marker] + after;
    assert lines[|before|] == marker;
    assert FirstMarker(lines) == Some(|before|);
    assert lines[|before| + 1..] == after;
  }

  /** Every described display was read from a display chunk of a
      contributing line. */
  lemma {:induction false} HarvestSource(lines: seq<string>, d: Display)
    requires d in Harvest(lines)
    ensures exists i :: 0 <= i < |lines| && Contributes(lines[i]) && d in LineDisplays(lines[i])
    decreases |lines|
  {
    var n := |lines|;
    var init := lines[..n - 1];
    if d in Harvest(init) {
      HarvestSource(init, d);
      var i :| 0 <= i < |init| && Contributes(init[i]) && d in LineDisplays(init[i]);
      assert lines[i] == init[i];
    } else {
      assert Contributes(lines[n - 1]) && d in LineDisplays(lines[n - 1]);
    }
  }

  /** Every display read from a line comes from one of its display chunks. */
  lemma {:induction false} ChunkSource(parts: seq<string>, d: Display)
    requires d in ChunkDisplays(parts)
    ensures exists j :: 0 <= j < |parts| && IsDisplayChunk(parts[j]) && ParseDisplayString(parts[j]) == Some(d)
    decreases |parts|
  {
    var n := |parts|;
    var init := parts[..n - 1];
    if d in ChunkDisplays(init) {
      ChunkSource(init, d);
      var j :| 0 <= j < |init| && IsDisplayChunk(init[j]) && ParseDisplayString(init[j]) == Some(d);
      assert parts[j] == init[j];
    } else {
      assert IsDisplayChunk(parts[n - 1]) && ParseDisplayString(parts[n - 1]) == Some(d);
    }
  }

  /** The command line of the comment on the chunk loop: one quoted chunk. */
  const ExampleCommand := "displayplacer " + ['"'] + ExampleChunk + ['"']

  /** Output with the marker line followed by the example command line. */
  const ExampleOutput := Marker + ['\n'] + ExampleCommand + ['\n']

  /** The display the example command describes. */
  const ExampleDisplay := Display("1", "2560x1440", (0, 0), 0, true)

  lemma JoinThree(a: string, b: string, c: string, sep: char)
    ensures Join([a, b, c], sep) == a + [sep] + b + [sep] + c
  {
    assert [a, b, c][1..] == [b, c];
    assert [b, c][1..] == [c];
    assert Join([c], sep) == c;
    assert Join([b, c], sep) == b + [sep] + c;
  }

  /** An occurrence inside the middle part of a text is one in the text. */
  lemma OccursWithin(a: string, b: string, c: string, sub: string, i: int)
    requires OccursAt(b, sub, i)
    ensures OccursAt(a + b + c, sub, |a| + i)
  {
    assert (a + b + c)[|a| + i..|a| + i + |sub|] == b[i..i + |sub|];
  }

  /** What the chunk loop takes from one piece. */
  function PieceDisplays(part: string): seq<Display> {
    if IsDisplayChunk(part) && ParseDisplayString(part).Some? then [ParseDisplayString(part).value] else []
  }

  /** The chunk loop over three pieces, piece by piece. */
  lemma ChunkDisplaysThree(p0: string, p1: string, p2: string)
    ensures ChunkDisplays([p0, p1, p2]) == PieceDisplays(p0) + PieceDisplays(p1) + PieceDisplays(p2)
  {
    var ps := [p0, p1, p2];
    assert ps[..2] == [p0, p1] && ps[2] == p2;
    assert [p0, p1][..1] == [p0] && [p0, p1][1] == p1;
    assert [p0][..0] == [] && [p0][0] == p0;
    assert ChunkDisplays([p0]) == PieceDisplays(p0);
    assert ChunkDisplays([p0, p1]) == PieceDisplays(p0) + PieceDisplays(p1);
  }

  /** `lines` of two `\n`-ended lines that hold no `\n` and do not end in
      `\r`. */
  lemma LinesOfTwo(a: string, b: string)
    requires '\n' !in a && '\n' !in b
    requires |a| > 0 && a[|a| - 1] != '\r' && |b| > 0 && b[|b| - 1] != '\r'
    ensures Lines(a + ['\n'] + b + ['\n']) == [a, b]
  {
    var s := a + ['\n'] + b + ['\n'];
    JoinThree(a, b, "", '\n');
    assert s + "" == s;
    SplitJoin([a, b, ""], '\n');
    assert s[|s| - 1] == '\n';
    assert StripCarriageReturn(a) == a && StripCarriageReturn(b) == b;
  }

  /** The pieces around the example chunk hold no display. */
  lemma ExampleOuterPieces()
    ensures PieceDisplays("displayplacer ") == [] && PieceDisplays("") == []
  {
    assert ':' !in "displayplacer ";
    if Contains("displayplacer ", "id:") {
      ContainsChar("displayplacer ", "id:", ':');
      assert false;
    }
  }

  /** The example command cut at its quotes. */
  lemma ExampleCommandPieces()
    ensures Split(ExampleCommand, '"') == ["displayplacer ", ExampleChunk, ""]
  {
    var parts := ["displayplacer ", ExampleChunk, ""];
    JoinThree("displayplacer ", ExampleChunk, "", '"');
    assert ExampleCommand + "" == ExampleCommand;
    ExampleChunkFacts();
    SplitJoin(parts, '"');
  }

  /** The example command passes the line filter of the chunk loop. */
  lemma ExampleCommandContributes()
    ensures Contributes(ExampleCommand)
  {
    var front := "displayplacer " + ['"'];
    ExampleChunkFacts();
    ExampleCommandNoMarker(front, ExampleCommand);
    ExampleCommandTrimmed(ExampleCommand);
    assert ExampleCommand[..13] == "displayplacer";
    var i :| 0 <= i <= |ExampleChunk| && OccursAt(ExampleChunk, "id:", i);
    OccursWithin(front, ExampleChunk, ['"'], "id:", i);
    var j :| 0 <= j <= |ExampleChunk| && OccursAt(ExampleChunk, "origin:", j);
    OccursWithin(front, ExampleChunk, ['"'], "origin:", j);
  }

  lemma ExampleCommandNoMarker(front: string, cmd: string)
    requires front == "displayplacer " + ['"'] && cmd == front + ExampleChunk + ['"']
    requires 'E' !in ExampleChunk
    ensures !Contains(cmd, Marker)
  {
    assert 'E' !in front;
    assert 'E' !in cmd;
    if Contains(cmd, Marker) {
      ContainsChar(cmd, Marker, 'E');
      assert false;
    }
  }

  lemma ExampleCommandTrimmed(cmd: string)
    requires cmd == "displayplacer " + ['"'] + ExampleChunk + ['"']
    ensures Trim(cmd) == cmd
  {
    assert cmd[0] == 'd' && cmd[|cmd| - 1] == '"';
    TrimWhereSurrounded("", cmd, "", IsWhitespace);
    assert "" + cmd + "" == cmd;
  }

  /** The example command describes exactly the example display. */
  lemma ExampleCommandDisplays()
    ensures LineDisplays(ExampleCommand) == [ExampleDisplay]
  {
    ExampleCommandPieces();
    ChunkDisplaysThree("displayplacer ", ExampleChunk, "");
    ExampleOuterPieces();
    ExampleChunkFacts();
    ParseDisplayStringExample();
  }

  /** The example output has two lines: the marker and the command. */
  lemma ExampleOutputLines()
    ensures Lines(ExampleOutput) == [Marker, ExampleCommand]
  {
    ExampleChunkFacts();
    assert '\n' !in Marker;
    assert '\n' !in ExampleCommand;
    LinesOfTwo(Marker, ExampleCommand);
  }

  /** The example output, run through the output parser, gives the example
      display and nothing else. */
  method ParseDisplayplacerOutputExample() returns (r: Result<seq<Display>, string>)
    ensures r == Ok([ExampleDisplay])
  {
    ExampleOutputDescribed();
    r := ParseDisplayplacerOutput(ExampleOutput);
  }

  lemma ExampleOutputDescribed()
    ensures Described(Lines(ExampleOutput)) == [ExampleDisplay]
  {
    ExampleOutputLines();
    ExampleDescribed();
  }

  /** The marker line followed by the example command describes the example
      display. */
  lemma ExampleDescribed()
    ensures Described([Marker, ExampleCommand]) == [ExampleDisplay]
  {
    ExampleCommandContributes();
    ExampleCommandDisplays();
    assert OccursAt(Marker, Marker, 0);
    DescribedAfterMarker([], Marker, [ExampleCommand]);
    assert [] + [Marker] + [ExampleCommand] == [Marker, ExampleCommand];
    assert [ExampleCommand][..0] == [];
  }

  // ---------------------------------------------------------------------
  // Enabling and disabling one display

  /** The single argument `toggle_display_enabled` passes to displayplacer. */
  function ToggleArgument(id: string, enabled: bool): string {
    "id:" + id + " enabled:" + (if enabled then "true" else "false")
  }

  /** Distinct requests give distinct arguments. */
  lemma ToggleArgumentInjective(id1: string, e1: bool, id2: string, e2: bool)
    requires ToggleArgument(id1, e1) == ToggleArgument(id2, e2)
    ensures id1 == id2 && e1 == e2
  {
    var a, b := ToggleArgument(id1, e1), ToggleArgument(id2, e2);
    assert a[|a| - 5..] == (if e1 then ":true" else "false");
    assert b[|b| - 5..] == (if e2 then ":true" else "false");
    assert e1 == e2;
    assert a[3..3 + |id1|] == id1;
    assert b[3..3 + |id2|] == id2;
  }

  /** The argument joins its two words with one space. */
  lemma ToggleArgumentJoin(id: string, enabled: bool)
    ensures var state := if enabled then "true" else "false";
      ToggleArgument(id, enabled) == Join(["id:" + id, "enabled:" + state], ' ')
  {
    var state := if enabled then "true" else "false";
    assert ["id:" + id, "enabled:" + state][1..] == ["enabled:" + state];
    assert " enabled:" + state == [' '] + ("enabled:" + state);
  }

  /** For a one-word id, `split_whitespace` cuts the argument into exactly
      the word naming the display and the word naming the state. */
  lemma ToggleArgumentTokens(id: string, enabled: bool)
    requires IsWord(id)
    ensures var state := if enabled then "true" else "false";
      Tokens(ToggleArgument(id, enabled)) == ["id:" + id, "enabled:" + state]
  {
    var state := if enabled then "true" else "false";
    var words := ["id:" + id, "enabled:" + state];
    WordAfterPrefix("id:", id);
    WordAfterPrefix("enabled:", state);
    ToggleArgumentJoin(id, enabled);
    TokensOfJoin(words);
  }

  /** A token whose first letter starts no prefix sets nothing. */
  lemma SetsNothing(tok: string)
    requires |tok| > 0 && tok[0] !in "irod"
    ensures forall k :: !Sets(k, tok)
  {
    forall k | Sets(k, tok) ensures false {
      SetsLetter(k, tok);
    }
  }

  /** In a toggle argument only the first word sets anything, and it sets
      the id. */
  lemma ToggleWordsSettings(id: string, state: string)
    ensures var words := ["id:" + id, "enabled:" + state];
      && IsLast(IdKey, words, 0) && Given(IdKey, words[0]) == Str(id)
      && forall k :: k != IdKey ==> NeverSets(k, words)
  {
    var words := ["id:" + id, "enabled:" + state];
    SetsPrefixed(IdKey, id);
    OnlySetting(IdKey, words[0]);
    SetsNothing(words[1]);
  }

  /** The display parser reads the id back out of a toggle argument, and
      finds no resolution, origin or rotation in it. What it reads as
      `enabled` depends on the id alone, not on the requested state. */
  lemma ToggleArgumentReadBack(id: string, enabled: bool)
    requires IsWord(id)
    ensures ParseDisplayString(ToggleArgument(id, enabled)).Some?
    ensures var d := ParseDisplayString(ToggleArgument(id, enabled)).value;
      && d.id == id && d.resolution == "" && d.origin == (0, 0) && d.rotation == 0
      && d.enabled == !Contains("id:" + id, "disabled")
  {
    var state := if enabled then "true" else "false";
    var words := ["id:" + id, "enabled:" + state];
    ToggleArgumentTokens(id, enabled);
    ToggleWordsSettings(id, state);
    ReadTokensLast(IdKey, words, 0);
    ReadTokensNever(ResKey, words);
    ReadTokensNever(OriginKey, words);
    ReadTokensNever(DegreeKey, words);
    ToggleDisabledOnlyInId(id, enabled);
  }

  /** The characters of an occurrence are those of the text that occurs. */
  lemma OccurrenceChars(s: string, sub: string)
    ensures forall i, j :: OccursAt(s, sub, i) && i <= j < i + |sub| ==> s[j] == sub[j - i]
  {
    forall i, j | OccursAt(s, sub, i) && i <= j < i + |sub| ensures s[j] == sub[j - i] {
      assert s[i..i + |sub|][j - i] == s[j];
    }
  }

  /** What follows the id in a toggle argument: a space, then no `i`. */
  lemma ToggleTail(enabled: bool)
    ensures var s := " enabled:" + (if enabled then "true" else "false");
      s[0] == ' ' && 'i' !in s
  {
  }

  /** An occurrence of `disabled` in a toggle argument lies inside the word
      naming the display. */
  lemma DisabledInToggle(id: string, enabled: bool, p: int)
    requires OccursAt(ToggleArgument(id, enabled), "disabled", p)
    ensures OccursAt("id:" + id, "disabled", p)
  {
    var a := "id:" + id;
    var s := " enabled:" + (if enabled then "true" else "false");
    var arg := ToggleArgument(id, enabled);
    var t := "disabled";
    assert arg == a + s;
    ToggleTail(enabled);
    OccurrenceChars(arg, t);
    assert forall j :: |a| <= j < |arg| ==> arg[j] == s[j - |a|];
    assert arg[p + 1] == 'i';
    assert arg[|a|] == ' ';
    assert ' ' !in t;
    assert p + |t| <= |a|;
    assert a[p..p + |t|] == arg[p..p + |t|];
  }

  /** `disabled` occurs in a toggle argument exactly when it occurs in the
      word naming the display: it contains no space, and the rest of the
      argument contains no `i`. */
  lemma ToggleDisabledOnlyInId(id: string, enabled: bool)
    ensures Contains(ToggleArgument(id, enabled), "disabled") <==> Contains("id:" + id, "disabled")
  {
    var a := "id:" + id;
    var arg := ToggleArgument(id, enabled);
    var t := "disabled";
    if Contains(arg, t) {
      var p :| 0 <= p <= |arg| && OccursAt(arg, t, p);
      DisabledInToggle(id, enabled, p);
    }
    if Contains(a, t) {
      var p :| 0 <= p <= |a| && OccursAt(a, t, p);
      assert arg == a + " enabled:" + (if enabled then "true" else "false");
      assert arg[p..p + |t|] == a[p..p + |t|];
      assert OccursAt(arg, t, p);
    }
  }

  /** The two halves disagree: `toggle_display_enabled` writes
      `enabled:false`, but the display parser only looks for `disabled`. So,
      for an id without an `i`, the argument that disables a display parses
      as an enabled display. */
  lemma ToggleOffReadsEnabled(id: string)
    requires IsWord(id) && 'i' !in id
    ensures ParseDisplayString(ToggleArgument(id, false)) == Some(Display(id, "", (0, 0), 0, true))
  {
    ToggleArgumentReadBack(id, false);
    IdWordNotDisabled(id);
  }

  /** The word `id:<id>` has its only `i` first, while `disabled` has one
      second, so it cannot contain `disabled` when the id has no `i`. */
  lemma IdWordNotDisabled(id: string)
    requires 'i' !in id
    ensures !Contains("id:" + id, "disabled")
  {
    var a := "id:" + id;
    OccurrenceChars(a, "disabled");
    assert forall j :: 3 <= j < |a| ==> a[j] == id[j - 3];
    assert forall p :: OccursAt(a, "disabled", p) ==> a[p + 1] == 'i';
  }

  /** A token starting with `e` changes no setting. */
  lemma ReadTokenNeutral(f: Fields, tok: string)
    requires |tok| > 0 && tok[0] == 'e'
    ensures ReadToken(f, tok) == f
  {
    assert !StartsWith(tok, "id:");
    assert !StartsWith(tok, "res:");
    assert !StartsWith(tok, "origin:");
    assert !StartsWith(tok, "degree:");
  }

  /** The word naming the requested state has no whitespace. */
  lemma ToggleStateWord(enabled: bool)
    ensures IsWord("enabled:" + (if enabled then "true" else "false"))
  {
    WordAfterPrefix("enabled:", if enabled then "true" else "false");
  }

  /** The settings read from a toggle argument are those of `id:<id>`
      alone: the state word sets nothing. */
  lemma ToggleFields(id: string, enabled: bool)
    ensures ReadTokens(Tokens(ToggleArgument(id, enabled))) == ReadTokens(Tokens("id:" + id))
  {
    var value := if enabled then "true" else "false";
    var state := "enabled:" + value;
    var front := Tokens("id:" + id);
    assert ToggleArgument(id, enabled) == "id:" + id + ([' '] + state);
    TokensAppend("id:" + id, [' '] + state);
    ToggleStateWord(enabled);
    TokensSpaceWord(state);
    var toks := front + [state];
    assert toks[..|toks| - 1] == front;
    ReadTokenNeutral(ReadTokens(front), state);
  }

  /** The parser reads the same display out of the argument that enables a
      display and the one that disables it, whatever the id. */
  lemma ToggleStateIgnored(id: string)
    ensures ParseDisplayString(ToggleArgument(id, true)) == ParseDisplayString(ToggleArgument(id, false))
  {
    ToggleFields(id, true);
    ToggleFields(id, false);
    ToggleDisabledOnlyInId(id, true);
    ToggleDisabledOnlyInId(id, false);
  }
}

=== FILE: integers.dfy ===
/** Rust's `i32`: its range, `str::parse::<i32>()` and the decimal text
    `format!("{}", n)` produces. */
module Integers {
  import opened Results

  const I32Min: int := -0x8000_0000
  const I32Max: int := 0x7FFF_FFFF

  type I32 = x: int | I32Min <= x <= I32Max

  predicate IsDigit(c: char) {
    '0' <= c <= '9'
  }

  predicate AllDigits(s: string) {
    forall i :: 0 <= i < |s| ==> IsDigit(s[i])
  }

  function DigitValue(c: char): (d: nat)
    requires IsDigit(c)
    ensures d < 10
  {
    (c as int) - ('0' as int)
  }

  function DigitChar(d: nat): (c: char)
    requires d < 10
    ensures IsDigit(c) && DigitValue(c) == d
  {
    ((('0' as int) + d) as char)
  }

  /** The value of a run of decimal digits, most significant first. */
  function DigitsValue(s: string): nat
    requires AllDigits(s)
    decreases |s|
  {
    if |s| == 0 then 0 else 10 * DigitsValue(s[..|s| - 1]) + DigitValue(s[|s| - 1])
  }

  /** Decimal digits of `n` without leading zeros. */
  function FormatNat(n: nat): (s: string)
    ensures |s| > 0 && AllDigits(s)
    ensures DigitsValue(s) == n
    decreases n
  {
    if n < 10 then [DigitChar(n)]
    else
      var s := FormatNat(n / 10) + [DigitChar(n % 10)];
      assert s[..|s| - 1] == FormatNat(n / 10);
      s
  }

  /** `format!("{}", n)` for an `i32`: a `-` before negative values, no sign
      otherwise. */
  function FormatI32(n: I32): string {
    if n < 0 then "-" + FormatNat(-(n as int)) else FormatNat(n)
  }

  /** The text is a minus sign at most, then digits. */
  lemma FormatI32Chars(n: I32)
    ensures var s := FormatI32(n);
      && |s| > 0 && (s[0] == '-' || IsDigit(s[0])) && IsDigit(s[|s| - 1])
      && (forall i :: 0 <= i < |s| ==> s[i] == '-' || IsDigit(s[i]))
      && (s[0] == '-' <==> n < 0)
  {
  }

  /** `str::parse::<i32>()`: an optional `+` or `-`, then at least one
      ASCII digit and nothing else, with a value inside the `i32` range.
      Anything else (empty text, a lone sign, spaces, overflow) fails. */
  function ParseI32(s: string): Option<I32> {
    if |s| == 0 then None
    else
      var negative := s[0] == '-';
      var digits := if s[0] == '-' || s[0] == '+' then s[1..] else s;
      if |digits| == 0 || !AllDigits(digits) then None
      else
        var magnitude: int := DigitsValue(digits);
        var v: int := if negative then -magnitude else magnitude;
        if I32Min <= v <= I32Max then Some(v) else None
  }

  /** Accepted text is a sign at most, then digits only: no spaces, no
      other characters. A leading `-` gives a value at most 0, anything
      else a value at least 0. */
  lemma ParseI32Accepts(s: string)
    requires ParseI32(s).Some?
    ensures |s| > 0 && IsDigit(s[|s| - 1])
    ensures forall i :: 0 < i < |s| ==> IsDigit(s[i])
    ensures IsDigit(s[0]) || s[0] == '-' || s[0] == '+'
    ensures s[0] == '-' ==> ParseI32(s).value <= 0
    ensures s[0] != '-' ==> ParseI32(s).value >= 0
  {
    var digits := if s[0] == '-' || s[0] == '+' then s[1..] else s;
    assert forall i :: 0 < i < |s| ==> s[i] == digits[i - (|s| - |digits|)];
  }

  /** Parsing reads back exactly the value that formatting printed, for
      every `i32`, negative values included. */
  lemma ParseFormatI32(n: I32)
    ensures ParseI32(FormatI32(n)) == Some(n)
  {
    if n < 0 {
      var s := "-" + FormatNat(-(n as int));
      assert s[1..] == FormatNat(-(n as int));
    }
  }
}

=== FILE: presets.dfy ===
/** The preset store: the saved display layouts and the three edits the
    backend makes to them. Each command loads the store, applies one pure
    transformation and saves it again; only the transformation is modelled.
    The fresh id and the creation timestamp are passed in. */
module Presets {
  import opened Results

  /** A saved layout: `config` is a displayplacer argument string. */
  datatype Preset = Preset(
    id: string,
    name: string,
    config: string,
    hotkey: Option<string>,
    createdAt: string)

  datatype PresetStore = PresetStore(version: string, presets: seq<Preset>)

  const StoreVersion := "1.0"

  const PresetNotFound := "Preset not found"

  /** `PresetStore::default()`: the store used while no file exists. */
  function DefaultStore(): PresetStore {
    PresetStore(StoreVersion, [])
  }

  /** No two presets share an id. The commands do not check this; the uuid
      generator is what keeps it true. */
  predicate UniqueIds(ps: seq<Preset>) {
    forall i, j :: 0 <= i < j < |ps| ==> ps[i].id != ps[j].id
  }

  /** Some preset has id `id`. */
  predicate HasId(ps: seq<Preset>, id: string) {
    exists i :: 0 <= i < |ps| && ps[i].id == id
  }

  /** The default store is version "1.0" and knows no id at all. */
  lemma DefaultStoreEmpty(id: string)
    ensures DefaultStore().version == "1.0"
    ensures !HasId(DefaultStore().presets, id)
    ensures UniqueIds(DefaultStore().presets)
  {
  }

  // ---------------------------------------------------------------------
  // Adding

  /** `add_preset`: a preset built from the arguments, with the fresh id
      and the timestamp given, pushed onto the end of the list. Returns the
      new store and the preset. */
  function AddPreset(store: PresetStore, id: string, name: string, config: string,
                     hotkey: Option<string>, createdAt: string): (r: (PresetStore, Preset))
    ensures |r.0.presets| == |store.presets| + 1
    ensures r.0.presets[..|store.presets|] == store.presets
    ensures r.0.presets[|store.presets|] == r.1
    ensures r.0.version == store.version
    ensures r.1 == Preset(id, name, config, hotkey, createdAt)
  {
    var preset := Preset(id, name, config, hotkey, createdAt);
    (store.(presets := store.presets + [preset]), preset)
  }

  // ---------------------------------------------------------------------
  // Deleting

  /** `Vec::retain(|p| p.id != id)`: the presets with another id, in order. */
  function Retain(ps: seq<Preset>, id: string): seq<Preset>
    decreases |ps|
  {
    if |ps| == 0 then []
    else (if ps[0].id != id then [ps[0]] else []) + Retain(ps[1..], id)
  }

  /** `delete_preset`: every preset with the id goes, the rest stay. */
  function DeletePreset(store: PresetStore, id: string): (r: PresetStore)
    ensures r.version == store.version
  {
    store.(presets := Retain(store.presets, id))
  }

  /** Retaining keeps exactly the presets with another id, and never
      lengthens the list. */
  lemma {:induction false} RetainMembers(ps: seq<Preset>, id: string)
    ensures forall p :: p in Retain(ps, id) <==> p in ps && p.id != id
    ensures |Retain(ps, id)| <= |ps|
    decreases |ps|
  {
    if |ps| > 0 {
      RetainMembers(ps[1..], id);
      assert ps == [ps[0]] + ps[1..];
    }
  }

  /** Retaining over a concatenation retains each part, so the presets that
      stay keep their relative order. */
  lemma {:induction false} RetainAppend(a: seq<Preset>, b: seq<Preset>, id: string)
    ensures Retain(a + b, id) == Retain(a, id) + Retain(b, id)
    decreases |a|
  {
    if |a| > 0 {
      assert (a + b)[1..] == a[1..] + b;
      RetainAppend(a[1..], b, id);
    } else {
      assert a + b == b;
    }
  }

  /** Retaining changes nothing exactly when no preset has the id. */
  lemma {:induction false} RetainAbsent(ps: seq<Preset>, id: string)
    ensures Retain(ps, id) == ps <==> !HasId(ps, id)
    decreases |ps|
  {
    RetainMembers(ps, id);
    if |ps| > 0 {
      RetainAbsent(ps[1..], id);
      if !HasId(ps, id) {
        assert !HasId(ps[1..], id) by {
          forall i | 0 <= i < |ps| - 1 ensures ps[1..][i].id != id {
            assert ps[1..][i] == ps[i + 1];
          }
        }
      } else if HasId(ps, id) {
        var i :| 0 <= i < |ps| && ps[i].id == id;
        assert ps[i] in ps;
        assert ps[i] !in Retain(ps, id);
      }
    }
  }

  /** Deleting removes every preset with the id and keeps every other one. */
  lemma DeletePresetMembers(store: PresetStore, id: string)
    ensures !HasId(DeletePreset(store, id).presets, id)
    ensures forall p :: p in DeletePreset(store, id).presets <==> p in store.presets && p.id != id
  {
    RetainMembers(store.presets, id);
  }

  /** Deleting an id that no preset has is a no-op, and only then. */
  lemma DeletePresetAbsent(store: PresetStore, id: string)
    ensures DeletePreset(store, id) == store <==> !HasId(store.presets, id)
  {
    RetainAbsent(store.presets, id);
  }

  /** Deleting twice is deleting once. */
  lemma DeletePresetIdempotent(store: PresetStore, id: string)
    ensures DeletePreset(DeletePreset(store, id), id) == DeletePreset(store, id)
  {
    DeletePresetMembers(store, id);
    DeletePresetAbsent(DeletePreset(store, id), id);
  }

  /** Deleting a preset just added under a fresh id gives the store back. */
  lemma DeleteAddedPreset(store: PresetStore, id: string, name: string, config: string,
                          hotkey: Option<string>, createdAt: string)
    requires !HasId(store.presets, id)
    ensures DeletePreset(AddPreset(store, id, name, config, hotkey, createdAt).0, id) == store
  {
    var preset := Preset(id, name, config, hotkey, createdAt);
    RetainAppend(store.presets, [preset], id);
    RetainAbsent(store.presets, id);
    assert Retain([preset], id) == [] + Retain([], id);
  }

  /** Deleting keeps ids unique. */
  lemma DeletePresetUnique(store: PresetStore, id: string)
    requires UniqueIds(store.presets)
    ensures UniqueIds(DeletePreset(store, id).presets)
  {
    RetainUnique(store.presets, id);
  }

  lemma {:induction false} RetainUnique(ps: seq<Preset>, id: string)
    requires UniqueIds(ps)
    ensures UniqueIds(Retain(ps, id))
    decreases |ps|
  {
    if |ps| > 0 {
      var rest := ps[1..];
      assert UniqueIds(rest) by {
        forall i, j | 0 <= i < j < |rest| ensures rest[i].id != rest[j].id {
          assert rest[i] == ps[i + 1] && rest[j] == ps[j + 1];
        }
      }
      RetainUnique(rest, id);
      RetainMembers(rest, id);
      var kept := Retain(rest, id);
      if ps[0].id != id {
        var all := [ps[0]] + kept;
        forall i, j | 0 <= i < j < |all| ensures all[i].id != all[j].id {
          if i == 0 {
            assert all[j] == kept[j - 1] && kept[j - 1] in rest;
            var k :| 0 <= k < |rest| && rest[k] == kept[j - 1];
            assert rest[k] == ps[k + 1];
          } else {
            assert all[i] == kept[i - 1] && all[j] == kept[j - 1];
          }
        }
      }
    }
  }

  // ---------------------------------------------------------------------
  // Updating

  /** The index of the first preset with id `id`: the element
      `iter_mut().find(|p| p.id == id)` lands on. */
  function FindIndex(ps: seq<Preset>, id: string): (r: Option<nat>)
    ensures r.Some? ==> r.value < |ps| && ps[r.value].id == id
    ensures r.Some? ==> forall j :: 0 <= j < r.value ==> ps[j].id != id
    ensures r.None? <==> !HasId(ps, id)
    decreases |ps|
  {
    if |ps| == 0 then None
    else if ps[0].id == id then Some(0)
    else
      match FindIndex(ps[1..], id)
      case None =>
        assert forall i :: 1 <= i < |ps| ==> ps[i] == ps[1..][i - 1];
        None
      case Some(k) => Some(k + 1)
  }

  /** The preset with the fields of the update that are given; `id` and
      `createdAt` are never touched, and a hotkey is replaced only by
      another one, never cleared. */
  function Patch(p: Preset, name: Option<string>, config: Option<string>,
                 hotkey: Option<string>): Preset {
    p.(name := name.UnwrapOr(p.name),
       config := config.UnwrapOr(p.config),
       hotkey := if hotkey.Some? then hotkey else p.hotkey)
  }

  /** `update_preset`: patches the first preset with the id and returns
      the store with the patched preset in its place, and the preset. No
      preset with the id is an error, and then there is no new store. */
  function UpdatePreset(store: PresetStore, id: string, name: Option<string>,
                        config: Option<string>, hotkey: Option<string>)
    : (r: Result<(PresetStore, Preset), string>)
    ensures r.Err? <==> !HasId(store.presets, id)
    ensures r.Err? ==> r.error == PresetNotFound
    ensures r.Ok? ==> var (s, p) := r.value;
      && s.version == store.version
      && |s.presets| == |store.presets|
      && (exists i :: IsFirst(store.presets, id, i)
            && s.presets[i] == p
            && p.id == id && p.createdAt == store.presets[i].createdAt
            && p.name == (if name.Some? then name.value else store.presets[i].name)
            && p.config == (if config.Some? then config.value else store.presets[i].config)
            && p.hotkey == (if hotkey.Some? then hotkey else store.presets[i].hotkey)
            && forall j :: 0 <= j < |s.presets| && j != i ==> s.presets[j] == store.presets[j])
  {
    match FindIndex(store.presets, id)
    case None => Err(PresetNotFound)
    case Some(i) =>
      var p := Patch(store.presets[i], name, config, hotkey);
      Ok((store.(presets := store.presets[i := p]), p))
  }

  /** `ps[i]` is the first preset with id `id`. */
  predicate IsFirst(ps: seq<Preset>, id: string, i: int) {
    0 <= i < |ps| && ps[i].id == id && forall j :: 0 <= j < i ==> ps[j].id != id
  }

  /** An update never takes a hotkey away. */
  lemma UpdateKeepsHotkey(store: PresetStore, id: string, name: Option<string>,
                          config: Option<string>, hotkey: Option<string>, i: int)
    requires IsFirst(store.presets, id, i) && store.presets[i].hotkey.Some?
    ensures UpdatePreset(store, id, name, config, hotkey).Ok?
    ensures UpdatePreset(store, id, name, config, hotkey).value.1.hotkey.Some?
  {
    FirstIsUnique(store.presets, id, i);
  }

  /** There is only one first preset with a given id. */
  lemma FirstIsUnique(ps: seq<Preset>, id: string, i: int)
    requires IsFirst(ps, id, i)
    ensures forall j :: IsFirst(ps, id, j) ==> j == i
    ensures FindIndex(ps, id) == Some(i)
  {
  }

  /** An update that gives no field returns the preset and the store as
      they were. */
  lemma UpdateNothing(store: PresetStore, id: string)
    requires HasId(store.presets, id)
    ensures UpdatePreset(store, id, None, None, None).Ok?
    ensures UpdatePreset(store, id, None, None, None).value.0 == store
  {
    var i := FindIndex(store.presets, id).value;
    assert store.presets[i := store.presets[i]] == store.presets;
  }

  /** Applying the same update twice is applying it once. */
  lemma UpdateIdempotent(store: PresetStore, id: string, name: Option<string>,
                         config: Option<string>, hotkey: Option<string>)
    requires HasId(store.presets, id)
    ensures var once := UpdatePreset(store, id, name, config, hotkey).value;
      UpdatePreset(once.0, id, name, config, hotkey) == Ok(once)
  {
    var i := FindIndex(store.presets, id).value;
    var once := UpdatePreset(store, id, name, config, hotkey).value;
    assert once.0.presets[i].id == id;
    assert IsFirst(once.0.presets, id, i);
    FirstIsUnique(once.0.presets, id, i);
    assert once.0.presets[i := once.1] == once.0.presets;
  }

  /** An update keeps ids unique, since it never changes an id. */
  lemma UpdatePresetUnique(store: PresetStore, id: string, name: Option<string>,
                           config: Option<string>, hotkey: Option<string>)
    requires UniqueIds(store.presets)
    requires UpdatePreset(store, id, name, config, hotkey).Ok?
    ensures UniqueIds(UpdatePreset(store, id, name, config, hotkey).value.0.presets)
  {
    var i := FindIndex(store.presets, id).value;
    var ps := UpdatePreset(store, id, name, config, hotkey).value.0.presets;
    assert forall j :: 0 <= j < |ps| ==> ps[j].id == store.presets[j].id;
  }

  /** Adding under a fresh id keeps ids unique, and the new preset is the
      one a later update or lookup of that id finds. */
  lemma AddPresetFresh(store: PresetStore, id: string, name: string, config: string,
                       hotkey: Option<string>, createdAt: string)
    requires UniqueIds(store.presets) && !HasId(store.presets, id)
    ensures var (s, p) := AddPreset(store, id, name, config, hotkey, createdAt);
      UniqueIds(s.presets) && FindIndex(s.presets, id) == Some(|store.presets|)
  {
    var (s, p) := AddPreset(store, id, name, config, hotkey, createdAt);
    assert forall j :: 0 <= j < |store.presets| ==> s.presets[j] == store.presets[j];
    assert IsFirst(s.presets, id, |store.presets|);
    FirstIsUnique(s.presets, id, |store.presets|);
  }
}

=== FILE: results.dfy ===
/** Rust's `Option` and `Result`, as used by the display parser and the
    preset store. */
module Results {

  datatype Option<T> = None | Some(value: T) {

    /** `Option::unwrap_or`: the carried value, or `default` when absent. */
    function UnwrapOr(default: T): T {
      match this
      case Some(v) => v
      case None => default
    }
  }

  /** `Result<T, E>`; every error in the modelled code is a `String`. */
  datatype Result<T, E> = Ok(value: T) | Err(error: E)
}

=== FILE: system_tray.dfy ===
/** The tray menu: which action a clicked menu item stands for, and what
    that action does to the main window, the events sent to the frontend and
    the application's exit. Building the menu and the tray icon is not
    modelled; the windowing system is reduced to the few facts these
    handlers read and change. */
module SystemTray {
  import opened Results
  import opened Text

  /** What a menu item asks for. */
  datatype Action =
    | ToggleVisibility
    | RefreshDisplays
    | ShowMainWindow
    | Quit
    | ApplyPreset(presetId: string)
    | Unknown

  /** Menu items for presets carry this prefix before the preset's id. */
  const PresetPrefix := "preset_"

  /** `str::strip_prefix`: the rest of `s` when it starts with `prefix`. */
  function StripPrefix(s: string, prefix: string): (r: Option<string>)
    ensures r.Some? <==> StartsWith(s, prefix)
    ensures r.Some? ==> prefix + r.value == s
  {
    if StartsWith(s, prefix) then
      assert s == s[..|prefix|] + s[|prefix|..];
      Some(s[|prefix|..])
    else None
  }

  /** Stripping a prefix from a text that was built with it gives back
      exactly what followed it. */
  lemma StripPrefixOfPrefixed(prefix: string, rest: string)
    ensures StripPrefix(prefix + rest, prefix) == Some(rest)
  {
    var s := prefix + rest;
    assert s[..|prefix|] == prefix;
    assert s[|prefix|..] == rest;
  }

  /** The `match` of `handle_tray_menu_event`: the four fixed items first,
      then any id starting with `preset_`; the preset's id is what follows
      the prefix. Everything else is unknown. */
  function RouteMenuItem(id: string): Action {
    if id == "show_hide" then ToggleVisibility
    else if id == "refresh" then RefreshDisplays
    else if id == "manage_presets" then ShowMainWindow
    else if id == "quit" then Quit
    else
      match StripPrefix(id, PresetPrefix)
      case Some(presetId) => ApplyPreset(presetId)
      case None => Unknown
  }

  /** The four fixed items and the actions they stand for. */
  lemma RouteFixedItems()
    ensures RouteMenuItem("show_hide") == ToggleVisibility
    ensures RouteMenuItem("refresh") == RefreshDisplays
    ensures RouteMenuItem("manage_presets") == ShowMainWindow
    ensures RouteMenuItem("quit") == Quit
  {
  }

  /** The fixed items are not preset items. */
  lemma FixedItemsNotPresets()
    ensures !StartsWith("show_hide", PresetPrefix)
    ensures !StartsWith("refresh", PresetPrefix)
    ensures !StartsWith("manage_presets", PresetPrefix)
    ensures !StartsWith("quit", PresetPrefix)
  {
    assert "show_hide"[0] != PresetPrefix[0];
    assert "refresh"[1] != PresetPrefix[1];
    assert "manage_presets"[0] != PresetPrefix[0];
    assert "quit"[0] != PresetPrefix[0];
  }

  /** The menu item for a preset routes to applying that very preset, for
      every preset id, the empty one included. */
  lemma RoutePresetItem(presetId: string)
    ensures RouteMenuItem(PresetPrefix + presetId) == ApplyPreset(presetId)
  {
    var id := PresetPrefix + presetId;
    StripPrefixOfPrefixed(PresetPrefix, presetId);
    FixedItemsNotPresets();
    assert id[..|PresetPrefix|] == PresetPrefix;
  }

  /** An item routes to a preset only when its id is the prefix followed by
      that preset's id. */
  lemma RouteApplyInverse(id: string)
    requires RouteMenuItem(id).ApplyPreset?
    ensures PresetPrefix + RouteMenuItem(id).presetId == id
  {
  }

  /** An item is unknown exactly when it is none of the fixed items and
      does not start with the prefix. */
  lemma RouteUnknown(id: string)
    ensures RouteMenuItem(id) == Unknown <==>
      id !in ["show_hide", "refresh", "manage_presets", "quit"] && !StartsWith(id, PresetPrefix)
  {
  }

  // ---------------------------------------------------------------------
  // Effects

  /** What the handlers know of the window named "main". `visibilityReadable`
      is false when `is_visible` fails. */
  datatype Window = Window(visible: bool, visibilityReadable: bool, focused: bool, minimized: bool)

  /** What an event sent to the frontend carries. */
  datatype Payload = NoPayload | PresetIdPayload(presetId: string)

  datatype Event = Event(name: string, payload: Payload)

  /** The part of the application the tray handlers act on. Failures to
      show, hide, focus or emit are ignored by the handlers, so they are
      not represented. */
  datatype App = App(main: Option<Window>, emitted: seq<Event>, exitCode: Option<int>)

  const RefreshEvent := "refresh-displays"

  const ApplyPresetEvent := "apply-preset-from-tray"

  /** `window.is_visible().unwrap_or(false)`. */
  predicate SeemsVisible(w: Window) {
    w.visibilityReadable && w.visible
  }

  /** `toggle_window_visibility`: a window that reports itself visible is
      hidden; any other, including one whose visibility cannot be read, is
      shown and focused. */
  function ToggleWindow(w: Window): (r: Window)
    ensures SeemsVisible(w) ==> !r.visible
    ensures !SeemsVisible(w) ==> r.visible && r.focused
    ensures r.visibilityReadable == w.visibilityReadable && r.minimized == w.minimized
  {
    if SeemsVisible(w) then w.(visible := false)
    else w.(visible := true, focused := true)
  }

  /** Toggling twice restores the visibility of a window whose visibility
      can be read. */
  lemma ToggleWindowTwice(w: Window)
    requires w.visibilityReadable
    ensures ToggleWindow(ToggleWindow(w)).visible == w.visible
  {
  }

  /** A window whose visibility cannot be read is shown by every toggle. */
  lemma ToggleUnreadable(w: Window)
    requires !w.visibilityReadable
    ensures ToggleWindow(w).visible && ToggleWindow(ToggleWindow(w)).visible
  {
  }

  /** `show_main_window`: show, focus and unminimize. */
  function ShowWindow(w: Window): Window {
    w.(visible := true, focused := true, minimized := false)
  }

  /** Showing leaves the window visible, focused and not minimized, and
      showing again changes nothing more. */
  lemma ShowWindowIdempotent(w: Window)
    ensures var r := ShowWindow(w);
      r.visible && r.focused && !r.minimized && ShowWindow(r) == r
      && r.visibilityReadable == w.visibilityReadable
  {
  }

  /** Applies `f` to the main window, when there is one. */
  function OnMain(app: App, f: Window -> Window): (r: App)
    ensures app.main.None? ==> r == app
    ensures r.emitted == app.emitted && r.exitCode == app.exitCode
  {
    match app.main
    case None => app
    case Some(w) => app.(main := Some(f(w)))
  }

  /** `Emitter::emit`: appends one event. */
  function Emit(app: App, e: Event): App {
    app.(emitted := app.emitted + [e])
  }

  /** What an action does to the application. Applying a preset only
      emits an event: the frontend does the rest. */
  function Perform(app: App, action: Action): App {
    match action
    case ToggleVisibility => OnMain(app, ToggleWindow)
    case RefreshDisplays => Emit(app, Event(RefreshEvent, NoPayload))
    case ShowMainWindow => OnMain(app, ShowWindow)
    case Quit => app.(exitCode := Some(0))
    case ApplyPreset(presetId) => Emit(app, Event(ApplyPresetEvent, PresetIdPayload(presetId)))
    case Unknown => app
  }

  /** `handle_tray_menu_event`. */
  function HandleTrayMenuEvent(app: App, id: string): App {
    Perform(app, RouteMenuItem(id))
  }

  /** Without a main window, neither the toggle nor the show item changes
      anything. */
  lemma NoMainWindow(app: App)
    requires app.main.None?
    ensures HandleTrayMenuEvent(app, "show_hide") == app
    ensures HandleTrayMenuEvent(app, "manage_presets") == app
  {
  }

  /** An unknown item changes nothing. */
  lemma UnknownItemNoEffect(app: App, id: string)
    requires RouteMenuItem(id) == Unknown
    ensures HandleTrayMenuEvent(app, id) == app
  {
  }

  /** The refresh item emits exactly one event, `refresh-displays`, and
      changes nothing else. */
  lemma RefreshEmitsOne(app: App)
    ensures var r := HandleTrayMenuEvent(app, "refresh");
      && r.emitted == app.emitted + [Event(RefreshEvent, NoPayload)]
      && r.main == app.main && r.exitCode == app.exitCode
  {
  }

  /** A preset item emits exactly one `apply-preset-from-tray` event
      carrying the preset's id, and changes nothing else. */
  lemma ApplyPresetEmitsOne(app: App, presetId: string)
    ensures var r := HandleTrayMenuEvent(app, PresetPrefix + presetId);
      && r.emitted == app.emitted + [Event(ApplyPresetEvent, PresetIdPayload(presetId))]
      && r.main == app.main && r.exitCode == app.exitCode
  {
    RoutePresetItem(presetId);
  }

  /** The quit item exits with status 0 and touches nothing else. */
  lemma QuitExitsZero(app: App)
    ensures HandleTrayMenuEvent(app, "quit") == app.(exitCode := Some(0))
  {
  }

  /** Clicking the show/hide item twice restores the main window's
      visibility when it can be read, and emits nothing. */
  lemma ShowHideTwice(app: App)
    requires app.main.Some? && app.main.value.visibilityReadable
    ensures var r := HandleTrayMenuEvent(HandleTrayMenuEvent(app, "show_hide"), "show_hide");
      && r.main.Some? && r.main.value.visible == app.main.value.visible
      && r.emitted == app.emitted && r.exitCode == app.exitCode
  {
    ToggleWindowTwice(app.main.value);
  }

  /** Only the quit item sets an exit status, and only items that emit
      events add to the emitted list, one event at a time. */
  lemma HandleTrayMenuEventFrame(app: App, id: string)
    ensures var r := HandleTrayMenuEvent(app, id);
      && (r.exitCode != app.exitCode ==> id == "quit")
      && (r.emitted != app.emitted ==>
            && |r.emitted| == |app.emitted| + 1
            && r.emitted[..|app.emitted|] == app.emitted
            && (id == "refresh" || StartsWith(id, PresetPrefix)))
      && (r.main != app.main ==> id == "show_hide" || id == "manage_presets")
  {
    var r := HandleTrayMenuEvent(app, id);
    if r.emitted != app.emitted {
      assert (app.emitted + [r.emitted[|r.emitted| - 1]])[..|app.emitted|] == app.emitted;
    }
  }
}

=== FILE: text.dfy ===
/** The handful of Rust `str` operations the display parser relies on,
    modelled over `seq<char>`: `contains`, `starts_with`, `split(char)`,
    `lines`, `trim`, `trim_matches` and `split_whitespace`. */
module Text {

  /** `char::is_whitespace`: the characters with the Unicode White_Space
      property. */
  predicate IsWhitespace(c: char) {
    || ('\t' <= c <= '\r')
    || c == ' '
    || c == '\U{85}'
    || c == '\U{A0}'
    || c == '\U{1680}'
    || ('\U{2000}' <= c <= '\U{200A}')
    || c == '\U{2028}'
    || c == '\U{2029}'
    || c == '\U{202F}'
    || c == '\U{205F}'
    || c == '\U{3000}'
  }

  /** `str::starts_with` */
  predicate StartsWith(s: string, prefix: string) {
    |prefix| <= |s| && s[..|prefix|] == prefix
  }

  /** `sub` occurs in `s` starting at index `i`. */
  predicate OccursAt(s: string, sub: string, i: int) {
    0 <= i && i + |sub| <= |s| && s[i..i + |sub|] == sub
  }

  /** `str::contains`: `sub` occurs at some position of `s`. */
  predicate Contains(s: string, sub: string) {
    exists i :: 0 <= i <= |s| && OccursAt(s, sub, i)
  }

  /** Every character of an occurring substring occurs in the string. */
  lemma ContainsChar(s: string, sub: string, c: char)
    requires Contains(s, sub)
    requires c in sub
    ensures c in s
  {
    var i :| 0 <= i <= |s| && OccursAt(s, sub, i);
    var k :| 0 <= k < |sub| && sub[k] == c;
    assert s[i + k] == sub[k];
  }

  /** The inverse of `Split`: the pieces put back together around `sep`. */
  function Join(parts: seq<string>, sep: char): string
    requires |parts| >= 1
    decreases |parts|
  {
    if |parts| == 1 then parts[0] else parts[0] + [sep] + Join(parts[1..], sep)
  }

  /** `str::split(sep)`: the maximal `sep`-free pieces, one more than there
      are separators, empty pieces included. */
  function Split(s: string, sep: char): (parts: seq<string>)
    ensures |parts| >= 1
    decreases |s|
  {
    if |s| == 0 then [""]
    else
      var rest := Split(s[1..], sep);
      if s[0] == sep then [""] + rest
      else [[s[0]] + rest[0]] + rest[1..]
  }

  /** No piece contains the separator. */
  lemma {:induction false} SplitPiecesFree(s: string, sep: char)
    ensures forall i :: 0 <= i < |Split(s, sep)| ==> sep !in Split(s, sep)[i]
    decreases |s|
  {
    if |s| > 0 {
      SplitPiecesFree(s[1..], sep);
    }
  }

  /** There is one piece more than there are separators. */
  lemma {:induction false} SplitCount(s: string, sep: char)
    ensures |Split(s, sep)| == multiset(s)[sep] + 1
    decreases |s|
  {
    if |s| > 0 {
      SplitCount(s[1..], sep);
      assert s == [s[0]] + s[1..];
    }
  }

  /** Joining the pieces around the separator gives back the string. */
  lemma {:induction false} JoinSplit(s: string, sep: char)
    ensures Join(Split(s, sep), sep) == s
    decreases |s|
  {
    if |s| > 0 {
      JoinSplit(s[1..], sep);
      var rest := Split(s[1..], sep);
      assert s == [s[0]] + s[1..];
      if s[0] == sep {
        assert Split(s, sep) == [""] + rest;
        assert ([""] + rest)[1..] == rest;
      } else {
        var parts := [[s[0]] + rest[0]] + rest[1..];
        assert Split(s, sep) == parts;
        if |rest| > 1 {
          assert parts[1..] == rest[1..];
          assert Join(rest, sep) == rest[0] + [sep] + Join(rest[1..], sep);
        }
      }
    }
  }

  lemma SplitSeparatorFirst(t: string, sep: char)
    ensures Split([sep] + t, sep) == [""] + Split(t, sep)
  {
    assert ([sep] + t)[1..] == t;
  }

  lemma {:induction false} SplitWordFirst(w: string, t: string, sep: char)
    requires sep !in w
    ensures Split(w + t, sep) == [w + Split(t, sep)[0]] + Split(t, sep)[1..]
    decreases |w|
  {
    var p := Split(t, sep);
    if |w| > 0 {
      var u := w + t;
      assert u[0] == w[0] && u[0] != sep;
      assert u[1..] == w[1..] + t;
      SplitWordFirst(w[1..], t, sep);
      var r := Split(u[1..], sep);
      assert r == [w[1..] + p[0]] + p[1..];
      assert Split(u, sep) == [[u[0]] + r[0]] + r[1..];
      assert r[0] == w[1..] + p[0];
      assert r[1..] == p[1..];
      assert w == [w[0]] + w[1..];
      assert [u[0]] + r[0] == w + p[0];
    } else {
      assert w + t == t;
      assert w + p[0] == p[0];
      assert p == [p[0]] + p[1..];
    }
  }

  /** Splitting undoes joining when no piece contains the separator. */
  lemma {:induction false} SplitJoin(parts: seq<string>, sep: char)
    requires |parts| >= 1
    requires forall i :: 0 <= i < |parts| ==> sep !in parts[i]
    ensures Split(Join(parts, sep), sep) == parts
    decreases |parts|
  {
    if |parts| == 1 {
      SplitWordFirst(parts[0], "", sep);
      assert parts[0] + "" == parts[0];
    } else {
      var rest := Join(parts[1..], sep);
      var tail := [sep] + rest;
      assert Join(parts, sep) == parts[0] + tail;
      SplitJoin(parts[1..], sep);
      SplitSeparatorFirst(rest, sep);
      assert Split(tail, sep) == [""] + parts[1..];
      SplitWordFirst(parts[0], tail, sep);
      assert Split(tail, sep)[0] == "";
      assert Split(tail, sep)[1..] == parts[1..];
      assert parts[0] + "" == parts[0];
      assert parts == [parts[0]] + parts[1..];
    }
  }

  /** Drops the `\r` of a CRLF line ending. */
  function StripCarriageReturn(line: string): string {
    if |line| > 0 && line[|line| - 1] == '\r' then line[..|line| - 1] else line
  }

  /** `str::lines`: the pieces between `\n`s, without an empty piece after a
      final `\n`; a line ended by `\n` also loses one trailing `\r`. */
  function Lines(s: string): (lines: seq<string>)
    ensures |lines| == multiset(s)['\n'] + (if |s| == 0 || s[|s| - 1] == '\n' then 0 else 1)
  {
    SplitCount(s, '\n');
    var pieces := Split(s, '\n');
    var terminated := |pieces| - 1;
    var count := if |s| == 0 || s[|s| - 1] == '\n' then terminated else |pieces|;
    seq(count, i requires 0 <= i < count =>
      if i < terminated then StripCarriageReturn(pieces[i]) else pieces[i])
  }

  /** Removes the longest prefix of characters that `drop` accepts. */
  function TrimStartWhere(s: string, drop: char -> bool): string
    decreases |s|
  {
    if |s| > 0 && drop(s[0]) then TrimStartWhere(s[1..], drop) else s
  }

  /** Removes the longest suffix of characters that `drop` accepts. */
  function TrimEndWhere(s: string, drop: char -> bool): string
    decreases |s|
  {
    if |s| > 0 && drop(s[|s| - 1]) then TrimEndWhere(s[..|s| - 1], drop) else s
  }

  /** Trimming the start leaves a suffix, drops only droppable characters,
      and stops at the first character it keeps. */
  lemma {:induction false} TrimStartWhereSpec(s: string, drop: char -> bool)
    ensures var r := TrimStartWhere(s, drop);
      && |r| <= |s| && r == s[|s| - |r|..]
      && (forall j :: 0 <= j < |s| - |r| ==> drop(s[j]))
      && (|r| == 0 || !drop(r[0]))
    decreases |s|
  {
    if |s| > 0 && drop(s[0]) {
      TrimStartWhereSpec(s[1..], drop);
    }
  }

  /** Trimming the end leaves a prefix, drops only droppable characters,
      and stops at the last character it keeps. */
  lemma {:induction false} TrimEndWhereSpec(s: string, drop: char -> bool)
    ensures var r := TrimEndWhere(s, drop);
      && |r| <= |s| && r == s[..|r|]
      && (forall j :: |r| <= j < |s| ==> drop(s[j]))
      && (|r| == 0 || !drop(r[|r| - 1]))
    decreases |s|
  {
    if |s| > 0 && drop(s[|s| - 1]) {
      TrimEndWhereSpec(s[..|s| - 1], drop);
    }
  }

  /** `str::trim_matches` with a character predicate. */
  function TrimWhere(s: string, drop: char -> bool): string {
    TrimEndWhere(TrimStartWhere(s, drop), drop)
  }

  /** `str::trim` */
  function Trim(s: string): string {
    TrimWhere(s, IsWhitespace)
  }

  lemma {:induction false} TrimStartPrefix(pre: string, rest: string, drop: char -> bool)
    requires forall j :: 0 <= j < |pre| ==> drop(pre[j])
    requires |rest| > 0 && !drop(rest[0])
    ensures TrimStartWhere(pre + rest, drop) == rest
    decreases |pre|
  {
    if |pre| > 0 {
      assert (pre + rest)[1..] == pre[1..] + rest;
      TrimStartPrefix(pre[1..], rest, drop);
    } else {
      assert pre + rest == rest;
    }
  }

  lemma {:induction false} TrimEndSuffix(rest: string, post: string, drop: char -> bool)
    requires forall j :: 0 <= j < |post| ==> drop(post[j])
    requires |rest| > 0 && !drop(rest[|rest| - 1])
    ensures TrimEndWhere(rest + post, drop) == rest
    decreases |post|
  {
    if |post| > 0 {
      var shorter := post[..|post| - 1];
      assert (rest + post)[..|rest + post| - 1] == rest + shorter;
      TrimEndSuffix(rest, shorter, drop);
    } else {
      assert rest + post == rest;
    }
  }

  /** Trimming strips exactly the droppable characters around a core that
      starts and ends with a kept character. */
  lemma TrimWhereSurrounded(pre: string, core: string, post: string, drop: char -> bool)
    requires forall j :: 0 <= j < |pre| ==> drop(pre[j])
    requires forall j :: 0 <= j < |post| ==> drop(post[j])
    requires |core| > 0 && !drop(core[0]) && !drop(core[|core| - 1])
    ensures TrimWhere(pre + core + post, drop) == core
  {
    assert pre + core + post == pre + (core + post);
    TrimStartPrefix(pre, core + post, drop);
    TrimEndSuffix(core, post, drop);
  }

  /** A non-empty run of non-whitespace characters: what
      `split_whitespace` yields. */
  predicate IsWord(w: string) {
    |w| > 0 && forall j :: 0 <= j < |w| ==> !IsWhitespace(w[j])
  }

  /** Length of the leading run of non-whitespace characters. */
  function WordLength(s: string): (n: nat)
    ensures n <= |s|
    ensures forall j :: 0 <= j < n ==> !IsWhitespace(s[j])
    ensures n == |s| || IsWhitespace(s[n])
    decreases |s|
  {
    if |s| == 0 || IsWhitespace(s[0]) then 0 else 1 + WordLength(s[1..])
  }

  /** `str::split_whitespace`: the maximal runs of non-whitespace, in order. */
  function Tokens(s: string): seq<string>
    decreases |s|
  {
    if |s| == 0 then []
    else if IsWhitespace(s[0]) then Tokens(s[1..])
    else
      var n := WordLength(s);
      [s[..n]] + Tokens(s[n..])
  }

  /** Every token is a word. */
  lemma {:induction false} TokensAreWords(s: string)
    ensures forall i :: 0 <= i < |Tokens(s)| ==> IsWord(Tokens(s)[i])
    decreases |s|
  {
    if |s| > 0 {
      if IsWhitespace(s[0]) {
        TokensAreWords(s[1..]);
      } else {
        TokensAreWords(s[WordLength(s)..]);
      }
    }
  }

  lemma {:induction false} WordLengthOfWord(w: string, rest: string)
    requires IsWord(w)
    requires |rest| == 0 || IsWhitespace(rest[0])
    ensures WordLength(w + rest) == |w|
    decreases |w|
  {
    assert (w + rest)[1..] == w[1..] + rest;
    if |w| > 1 {
      WordLengthOfWord(w[1..], rest);
    } else {
      assert w[1..] + rest == rest;
    }
  }

  lemma TokensWordFirst(w: string, rest: string)
    requires IsWord(w)
    requires |rest| == 0 || IsWhitespace(rest[0])
    ensures Tokens(w + rest) == [w] + Tokens(rest)
  {
    WordLengthOfWord(w, rest);
    assert (w + rest)[..|w|] == w;
    assert (w + rest)[|w|..] == rest;
  }

  lemma {:induction false} WordLengthAppend(s: string, t: string)
    requires |t| == 0 || IsWhitespace(t[0])
    ensures WordLength(s + t) == WordLength(s)
    decreases |s|
  {
    if |s| == 0 {
      assert s + t == t;
    } else if !IsWhitespace(s[0]) {
      assert (s + t)[1..] == s[1..] + t;
      WordLengthAppend(s[1..], t);
    }
  }

  /** `split_whitespace` of two texts with whitespace (or nothing) between
      them is the tokens of the first followed by those of the second. */
  lemma {:induction false} TokensAppend(s: string, t: string)
    requires |t| == 0 || IsWhitespace(t[0])
    ensures Tokens(s + t) == Tokens(s) + Tokens(t)
    decreases |s|
  {
    if |s| == 0 {
      assert s + t == t;
    } else if IsWhitespace(s[0]) {
      TokensAppendSpace(s, t);
      TokensAppend(s[1..], t);
    } else {
      TokensAppendWord(s, t);
      TokensAppend(s[WordLength(s)..], t);
    }
  }

  /** Leading whitespace of `s` is skipped whatever follows. */
  lemma TokensAppendSpace(s: string, t: string)
    requires |s| > 0 && IsWhitespace(s[0])
    ensures Tokens(s + t) == Tokens(s[1..] + t)
  {
    assert (s + t)[0] == s[0];
    assert (s + t)[1..] == s[1..] + t;
  }

  /** The first word of `s` stays the first token once `t` is appended. */
  lemma TokensAppendWord(s: string, t: string)
    requires |t| == 0 || IsWhitespace(t[0])
    requires |s| > 0 && !IsWhitespace(s[0])
    ensures 0 < WordLength(s)
    ensures Tokens(s + t) == [s[..WordLength(s)]] + Tokens(s[WordLength(s)..] + t)
  {
    var u := s + t;
    var n := WordLength(s);
    WordLengthAppend(s, t);
    assert u[0] == s[0];
    assert u[..n] == s[..n];
    assert u[n..] == s[n..] + t;
  }

  /** A single word after a space is the only token. */
  lemma TokensSpaceWord(w: string)
    requires IsWord(w)
    ensures Tokens([' '] + w) == [w]
  {
    assert ([' '] + w)[1..] == w;
    TokensWordFirst(w, "");
    assert w + "" == w;
  }

  /** `split_whitespace` undoes joining words with single spaces. */
  lemma {:induction false} TokensOfJoin(words: seq<string>)
    requires |words| >= 1
    requires forall i :: 0 <= i < |words| ==> IsWord(words[i])
    ensures Tokens(Join(words, ' ')) == words
    decreases |words|
  {
    if |words| == 1 {
      TokensWordFirst(words[0], "");
      assert words[0] + "" == words[0];
      assert Tokens("") == [];
    } else {
      var rest := Join(words[1..], ' ');
      TokensOfJoin(words[1..]);
      assert words[0] + [' '] + rest == words[0] + ([' '] + rest);
      TokensWordFirst(words[0], [' '] + rest);
      assert ([' '] + rest)[1..] == rest;
      assert words == [words[0]] + words[1..];
    }
  }
}
